=== FILE: README.md ===
# react-ferms form state, modelled in Dafny

This project models the immutable form-state layer of react-ferms.

- A **form field** is a record holding:
  - a raw value and an optional transform;
  - a validator and a trigger that says when to validate;
  - a status (PRISTINE, DIRTY, INVALID, or VALIDATING while a validation is in flight);
  - a list of errors.
- A **field collection** (`FormFields`) stores fields under a sanitized key. It also holds form-wide defaults, a default trigger and a validation strategy.
- Every operation returns a new value.
- The collection derives three things from its fields:
  - the form status, as the maximum over the fields;
  - a nested `values` object;
  - a nested `errors` object.

Both designs in the repository are modelled:

- **The current asynchronous one.** `FormField` and `FormFields` in src/data. Validation first marks fields VALIDATING, then settles them from the validator's verdict.
- **The older synchronous one.** `LegacyFormField` and `LegacyFormFields`. Its collection stores the form status instead of deriving it.

The pure logic of three components is modelled as well:

- the Input checkbox toggle and `isChecked`;
- the value and status gathering of Value;
- the status selection of Status.

Modules:

- `Wrappers`: `Option`.
- `Types`:
  - statuses and their ranks, triggers and values;
  - error items, failures and verdicts;
  - the arrow types for transforms, validators and strategies.
- `Helpers`:
  - `noop`, `alwaysValid` and the default strategy;
  - `sanitizeKey`, built on a model of `String.prototype.indexOf`.
- `Dict`: a JavaScript object used as a map. It is an insertion-ordered list of entries with `Get`, `Put`, `Del` and `MapValues`.
- `Trees`: JSON-like nested objects addressed by dotted paths.
  - `prop-ops` is an imported library that is not part of this model; its `set` and `get` are rebuilt here as `SetPath` and `GetKey`.
  - `Assemble` is the "reduce over `prop.set`" that builds `values` and `errors`.
- `FormField`, `FormFields`, `LegacyFormField`, `LegacyFormFields`: the two designs.
- `InputLogic`, `ValueView`, `StatusView`: the component helpers.

How react-ferms' JavaScript is rendered here:

- Validators, transforms and strategies are uninterpreted Dafny functions stored in the records.
  - A validator returns `Pass` (the value `true`) or `Fail` with a failure.
  - A failure is either an array of errors or a single non-array value.
- An awaited strategy is modelled by its settled verdict.
- A lookup of a field that does not exist throws a `TypeError` in the JavaScript code. Here it is an `Option` result, `None` on that path.

## Model

| member | source | states |
|---|---|---|
| Types.MaxStatus | src/types/index.tsx:13-17 | the maximum of two statuses ranks at least as high as both, and is one of them |
| Types.Normalize | src/data/FormField.tsx:47 | an array result is stored as it is; any other failure becomes a one-element list holding it |
| Helpers.FirstIndexOf | src/helpers/index.tsx:5 | `indexOf` for one character: the first position holding it, and `None` exactly when it does not occur |
| Helpers.SanitizeKey | src/helpers/index.tsx:5 | length is kept; a key without '.' is unchanged; only the first '.' changes, and it becomes '-' |
| Helpers.SanitizeKeyDotFree | src/helpers/index.tsx:5 | a key with at most one '.' sanitizes to a dot-free storage key |
| Helpers.SanitizeKeyCollides | src/helpers/index.tsx:5 | the different keys "a.b" and "a-b" share one storage slot |
| Dict.Keys | src/data/FormFields.tsx:64-109 | `Object.keys` gives one key per entry; the partners `Dict.KeysAt`, `Dict.PutOrder` and `Dict.KeysMapValues` state their order and how writes change them |
| Dict.KeysAt | src/data/FormFields.tsx:64-109 | `Object.keys` lists the keys entry by entry, in insertion order |
| Dict.Get | src/data/FormFields.tsx:132-135 | a lookup succeeds exactly for a present key, and returns a value stored under it |
| Dict.Put | src/data/FormFields.tsx:229-232 | the written key reads back the new value and every other key reads as before |
| Dict.PutOrder | src/data/FormFields.tsx:229-232 | an existing key keeps its place, so the key sequence is unchanged; a new key is appended at the end |
| Dict.PutUnique | src/data/FormFields.tsx:229-232 | writing a key keeps the keys unique and introduces no key but the written one |
| Dict.Del | src/data/FormFields.tsx:57-62 | the key is gone, every other key reads as before, an absent key leaves the object as it is, and uniqueness is kept; `Dict.DelOrder` states the order of what remains |
| Dict.MapValues | src/data/FormFields.tsx:192-223 | each entry keeps its key and position and has its value rewritten |
| Dict.GetMapValues | src/data/FormFields.tsx:192-223 | a lookup after rewriting every value is the rewritten lookup |
| Dict.DelAt | src/data/FormFields.tsx:57-62 | with unique keys, deleting the key of entry i gives the entries before i followed by those after it |
| Dict.DelOrder | src/data/FormFields.tsx:57-62 | with unique keys, deleting a present key removes its one entry and keeps the others in their order |
| Dict.DelAfterAppend | src/data/FormFields.tsx:57-62 | deleting a key that was just appended restores the object |
| Dict.KeysMapValues | src/data/FormFields.tsx:192-223 | rewriting every value keeps the key sequence |
| Trees.Split | src/data/FormFields.tsx:137-146 | a dotted key splits into at least one segment, and no segment contains '.' |
| Trees.JoinSplit | src/data/FormFields.tsx:137-146 | joining the segments of a key with '.' gives the key back |
| Trees.SplitJoin | src/data/FormFields.tsx:137-146 | splitting the join of dot-free segments gives the segments back |
| Trees.GetSetSame | src/data/FormFields.tsx:137-146 | a path reads back the value just written there |
| Trees.GetSetOther | src/data/FormFields.tsx:137-146 | writing a path leaves every path independent of it unchanged |
| Trees.EmptyHasNothing | src/data/FormFields.tsx:25-32 | the empty object holds nothing at any path |
| Trees.AssembleLookup | src/data/FormFields.tsx:137-170 | in the object built from the fields, a field whose path no other touches reads back as its leaf |
| Trees.AssembleAbsent | src/data/FormFields.tsx:137-170 | in that object, a path independent of every field holds nothing |
| FormField.MarkValidating | src/data/FormField.tsx:21-26 | the copy is VALIDATING and still valid; restoring the status gives the original field |
| FormField.Complete | src/data/FormField.tsx:34-54 | valid iff the verdict is `true`; DIRTY with no errors, or INVALID with the normalised errors; nothing else changes |
| FormField.ValidateAsync | src/data/FormField.tsx:34-54 | valid iff the strategy, given the transformed value and the validator, answers `true`; only status and errors change |
| FormField.Validate | src/data/FormField.tsx:21-32 | the returned field is VALIDATING with every other attribute kept; the promise settles DIRTY if the verdict passed and INVALID otherwise |
| FormField.SetKey | src/data/FormField.tsx:93-95 | the key is replaced and nothing else |
| FormField.SetValue | src/data/FormField.tsx:97-105 | the raw value is the new value, or the empty value if the new one is falsy; PRISTINE becomes DIRTY, any other status is kept; nothing else changes |
| FormField.SetTransform | src/data/FormField.tsx:107-109 | the raw value is kept and the value becomes the new transform of it, or the raw value itself when the transform is unset |
| FormField.SetValidate | src/data/FormField.tsx:111-113 | only the validator changes; unsetting it falls back to `alwaysValid` |
| FormField.SetValidateOn | src/data/FormField.tsx:115-117 | the effective trigger becomes the new one, or the form default when unset; nothing else changes |
| FormField.SetDefaultValidateOn | src/data/FormField.tsx:119-121 | a field with its own trigger keeps it; one without follows the new default |
| FormField.SetValidationStrategy | src/data/FormField.tsx:123-125 | the field is now judged by the new strategy on its own value and validator |
| FormField.BareDefaults | src/data/FormField.tsx:56-91 | a field without optional attributes is PRISTINE, error-free and valid, follows the default trigger, holds '' or [] when multiple, and passes validation |
| FormField.ValueIsTransformedRaw | src/data/FormField.tsx:80-87 | the value is the transform of the raw value, and the raw value itself without a transform |
| FormField.NoValidatorPasses | src/data/FormField.tsx:34-38 | with no validator under the default strategy, validation settles DIRTY with no errors |
| FormField.DefaultStrategyAppliesValidator | src/validation-strategies/default.tsx:3-6 | under the default strategy the verdict is the validator applied to the transformed value |
| FormField.FailureWithoutErrors | src/data/FormField.tsx:38-47 | a failure with an empty list leaves the field INVALID but with no errors |
| FormField.StatusAndErrorsRead | src/data/FormField.tsx:56-70 | a stored status reads as itself and an unset one as PRISTINE; the field is valid in every status but INVALID; unset errors read as `[]` |
| FormField.TriggerFallback | src/data/FormField.tsx:72-74 | the field's own trigger wins, else the form-wide default |
| FormField.RawValueFallback | src/data/FormField.tsx:85-91 | a truthy stored value reads as itself; an unset or '' one reads as `[]` for a multiple field and '' otherwise; storing what was read changes nothing |
| FormFields.Update | src/data/FormFields.tsx:229-232 | the field is stored under the sanitized key and every other entry and the configuration stay as they were |
| FormFields.Add | src/data/FormFields.tsx:34-55 | a multiple add of a present key returns the collection itself; otherwise the new field is stored and nothing else changes; an existing key keeps its place and a new key is appended at the end |
| FormFields.Remove | src/data/FormFields.tsx:57-62 | only the entry at the sanitized key is dropped and the remaining entries keep their order; an absent key returns the collection as it is |
| FormFields.Modify | src/data/FormFields.tsx:132-135 | fails exactly when the key has no field; otherwise only that entry is rewritten, in place |
| FormFields.SetValue | src/data/FormFields.tsx:172-175 | only the field at the key changes, and it changes as the field's own `setValue` says |
| FormFields.SetTransform | src/data/FormFields.tsx:177-180 | only the field at the key changes, by `setTransform` |
| FormFields.SetValidation | src/data/FormFields.tsx:182-185 | only the field at the key changes, by `setValidate` |
| FormFields.SetValidateOn | src/data/FormFields.tsx:187-190 | only the field at the key changes, by `setValidateOn` |
| FormFields.SetValidationStrategy | src/data/FormFields.tsx:192-208 | a missing strategy means the default one; every field gets the strategy, with keys and order kept |
| FormFields.SetDefaultValidateOn | src/data/FormFields.tsx:210-223 | a missing trigger means 'submit'; every field gets the new default, with keys and order kept |
| FormFields.SetDefaults | src/data/FormFields.tsx:225-227 | the defaults are replaced (missing means `{}`) and the fields are untouched |
| FormFields.AllValid | src/data/FormFields.tsx:86-109 | true iff every settled field passed |
| FormFields.ValidateAsync | src/data/FormFields.tsx:86-109 | each settled field is stored under its own key, the key order is kept, and the result is valid iff every field passed |
| FormFields.Validate | src/data/FormFields.tsx:64-84 | every field is marked VALIDATING under the same key with the configuration kept, and the promise is the settlement of the marked fields |
| FormFields.ValidateSettles | src/data/FormFields.tsx:64-109 | the promise holds each field settled by its own verdict under the same key, and is valid iff every verdict passed |
| FormFields.SettleAll | src/data/FormFields.tsx:64-84 | marking every field and then settling it settles every field by its own verdict, keys kept |
| FormFields.SettleMarked | src/data/FormField.tsx:21-54 | settling a field marked VALIDATING is the same as settling the field itself |
| FormFields.ValidateFieldAsync | src/data/FormFields.tsx:120-130 | the settled field is stored under its key and nothing else changes; an existing key keeps its place, a missing one is appended |
| FormFields.ValidateField | src/data/FormFields.tsx:111-118 | fails exactly for a missing key; only that field is marked and then settled, and validity follows its verdict |
| FormFields.StatusOver | src/data/FormFields.tsx:148-156 | the form status ranks at least as high as every field's, is PRISTINE when there are no fields, and is some field's status |
| FormFields.EmptyCollection | src/data/FormFields.tsx:25-32 | a collection with no options has empty values and errors, status PRISTINE, trigger 'submit', `{}` defaults and the default strategy |
| FormFields.CreateOptions | src/data/FormFields.tsx:25-32 | each option given is used as it is; a missing one means `{}` defaults, no fields, 'submit' or the default strategy |
| FormFields.CreateFromOwnOptions | src/data/FormFields.tsx:25-32 | rebuilding a collection from its own options gives it back |
| FormFields.GetFieldSanitizes | src/data/FormFields.tsx:132-135 | a field is found exactly when the sanitized key is stored; keys that sanitize alike find the same field; a dot-free key is looked up as it is |
| FormFields.StatusRanks | src/data/FormFields.tsx:148-156 | the form is PRISTINE iff every field is, VALIDATING iff some field is, and never ranks below any field |
| FormFields.AddMultipleIdempotent | src/data/FormFields.tsx:35-37 | adding a multiple field twice is adding it once |
| FormFields.AddedField | src/data/FormFields.tsx:34-55 | the added field is PRISTINE iff the given value is falsy (unset or ''; `[]` is truthy and counts as given) and DIRTY otherwise; a given value is kept; the field follows its own trigger or else the form's, and has no errors |
| FormFields.AddUsesDefault | src/data/FormFields.tsx:39-51 | with no value, the field starts from the default at the key's path yet stays PRISTINE |
| FormFields.AddWithoutDefault | src/data/FormFields.tsx:39-51 | with no value and no default, the field holds '' (or [] when multiple) |
| FormFields.RemoveAfterAdd | src/data/FormFields.tsx:34-62 | removing a field just added to a collection without it gives the collection back |
| FormFields.AddRemoveKeepKeysUnique | src/data/FormFields.tsx:34-62 | add and remove keep the storage keys unique |
| FormFields.InvalidDominates | src/data/FormFields.tsx:148-156 | one INVALID field makes the form INVALID when none is VALIDATING |
| FormFields.ValidatingForm | src/data/FormFields.tsx:64-84 | while a whole-form validation is in flight, a non-empty form is VALIDATING |
| FormFields.SettledStatusOver | src/data/FormFields.tsx:148-156 | over settled fields the form is INVALID iff some field is, and DIRTY iff all are |
| FormFields.SettledFields | src/data/FormFields.tsx:86-109 | after settling, every field is DIRTY or INVALID, and the form is valid iff every field is DIRTY |
| FormFields.SettledFormStatus | src/data/FormFields.tsx:64-109 | once settled, a non-empty form is DIRTY iff valid and INVALID iff not; an empty one is valid and PRISTINE |
| FormFields.ValuesLookup | src/data/FormFields.tsx:137-146 | a field whose path no other touches reads back from `values` at its dotted key, as its transformed value |
| FormFields.ErrorsLookup | src/data/FormFields.tsx:158-170 | such a field appears in `errors` exactly when its error list is non-empty, with that list |
| FormFields.NothingElse | src/data/FormFields.tsx:137-170 | `values` and `errors` hold nothing at a path no field touches |
| FormFields.DefaultTriggerReachesFields | src/data/FormFields.tsx:210-223 | after the change each field follows its own trigger, else the new default, else 'submit' |
| FormFields.StrategyReachesFields | src/data/FormFields.tsx:192-208 | after the change every field is judged by the new strategy on its own value and validator |
| FormFields.SetDefaultsKeepsFields | src/data/FormFields.tsx:225-227 | replacing the defaults leaves values, errors and status as they were |
| LegacyFormField.Validate | src/FormField.tsx:35-64 | a `true` verdict returns the very same field; any other verdict gives an INVALID copy that stores the raw result as errors, which `errors` reads back as the result when truthy and as `[]` when falsy; nothing else changes |
| LegacyFormField.SetKey | src/FormField.tsx:70-72 | only the key changes |
| LegacyFormField.SetValidateOn | src/FormField.tsx:82-84 | the effective trigger is the new one, or 'submit' when unset; nothing else changes |
| LegacyFormField.SetValue | src/FormField.tsx:95-97 | the raw value is the new one, and the status is untouched |
| LegacyFormField.SetTransform | src/FormField.tsx:99-101 | the value becomes the new transform of the raw value, or the raw value itself when the transform is unset |
| LegacyFormField.SetValidate | src/FormField.tsx:103-105 | the verdict becomes the new validator on the value, or a pass when the validator is unset |
| LegacyFormField.BareDefaults | src/FormField.tsx:58-93 | a field holding only its key is PRISTINE, error-free and valid, validates on 'submit', holds '' and passes validation |
| LegacyFormField.PassKeepsStaleStatus | src/FormField.tsx:39-44 | a passing validation of a field that failed earlier keeps it INVALID, with its old errors |
| LegacyFormField.EmptyStringFailureReadsEmpty | src/FormField.tsx:46-64 | a validator failing with '' leaves the field INVALID, yet its `errors` read as `[]` |
| LegacyFormField.StatusAndErrorsRead | src/FormField.tsx:58-76 | a stored status reads as itself and an unset one as PRISTINE; the field is valid in every status but INVALID; truthy stored errors read as themselves, anything else as `[]`, so what is read is never falsy |
| LegacyFormField.TriggerFallback | src/FormField.tsx:78-80 | the field's own trigger wins, else 'submit' |
| LegacyFormField.RawValueFallback | src/FormField.tsx:86-93 | a truthy stored value reads as itself and anything else as ''; storing what was read changes nothing; the value is the transform of the raw value, or the raw value without one |
| LegacyFormFields.Update | src/FormFields.tsx:163-176 | only the entry at the sanitized key changes; an existing key keeps its place and a new key is appended at the end; the global status is kept unless one is given |
| LegacyFormFields.Add | src/FormFields.tsx:109-128 | the new field is stored under the sanitized key, in the old key's place or appended at the end; no other entry changes, and neither does the global status |
| LegacyFormFields.Remove | src/FormFields.tsx:130-137 | the entry at the sanitized key is dropped and the remaining entries keep their order; defaults, trigger and global status are kept |
| LegacyFormFields.SetValue | src/FormFields.tsx:149-156 | fails exactly for a missing key; only that field's value changes; a PRISTINE form becomes DIRTY, any other form status is kept |
| LegacyFormFields.SetTransform | src/FormFields.tsx:139-142 | fails exactly for a missing key; only that field's transform changes, in place, so the key order is kept; the global status is kept |
| LegacyFormFields.SetValidation | src/FormFields.tsx:144-147 | fails exactly for a missing key; only that field's validator changes, in place, so the key order is kept; the global status is kept |
| LegacyFormFields.ValidateField | src/FormFields.tsx:76-84 | a pass returns the same collection; a failure stores the failed field and makes the form INVALID, with no other entry changed |
| LegacyFormFields.Contribution | src/FormFields.tsx:89-94 | a field adds its error list's items; a single string error is spread into its characters; any other single value adds nothing |
| LegacyFormFields.ErrorsOver | src/FormFields.tsx:86-97 | the flat list holds exactly the items the fields contribute, and is empty iff no field contributes any |
| LegacyFormFields.ErrorsOverAppend | src/FormFields.tsx:86-97 | the list is the fields' contributions concatenated in key order, duplicates kept: splitting the fields splits the list |
| LegacyFormFields.ErrorsOverSingle | src/FormFields.tsx:89-94 | a single field contributes exactly its own error list, spread as `push(...)` spreads it |
| LegacyFormFields.EmptyCollection | src/FormFields.tsx:31-41 | a collection built with no arguments has empty values and errors, is PRISTINE, and its trigger is 'submit' |
| LegacyFormFields.CreateArguments | src/FormFields.tsx:31-41 | each argument given is used as it is; a missing one means `{}` defaults, 'submit', no fields or PRISTINE |
| LegacyFormFields.CreateFromOwnAttributes | src/FormFields.tsx:31-41 | rebuilding a collection from its own attributes gives it back |
| LegacyFormFields.GetFieldSanitizes | src/FormFields.tsx:158-161 | a field is found exactly when the sanitized key is stored; keys that sanitize alike find the same field; a dot-free key is looked up as it is |
| LegacyFormFields.AddedField | src/FormFields.tsx:109-128 | the new field is PRISTINE iff the value is missing or ''; a non-empty value is kept; otherwise the field holds the default stored at the key's path, or '' when there is none; it follows its own trigger or else the form's |
| LegacyFormFields.StatusNotDerived | src/FormFields.tsx:105-107 | adding a DIRTY field to a PRISTINE form leaves the form PRISTINE |
| LegacyFormFields.StatusIgnoresFields | src/FormFields.tsx:105-107 | the form status reads only the stored global status, whatever the fields are |
| LegacyFormFields.ValuesLookup | src/FormFields.tsx:99-103 | a field whose storage path no other field touches reads back from `values` under its storage key |
| LegacyFormFields.ValuesNothingElse | src/FormFields.tsx:99-103 | `values` holds nothing at a path no storage key touches |
| InputLogic.IndexOf | src/components/Input.tsx:39 | `Array.prototype.indexOf`: the first index holding the item, and -1 exactly when it is absent |
| InputLogic.IndexOfSub | src/components/Input.tsx:16-19 | `String.prototype.indexOf`: the first position where the search string occurs, and -1 exactly when it occurs nowhere |
| InputLogic.ShiftMatch | src/components/Input.tsx:16-19 | an occurrence one position in is an occurrence in the tail |
| InputLogic.Splice1 | src/components/Input.tsx:39 | `splice(start, 1)`: an in-range start removes that one element; -1 removes the last; a start past the end removes nothing |
| InputLogic.Spread | src/components/Input.tsx:33-34 | a list is copied as it is; a string is spread into its characters |
| InputLogic.IsChecked | src/components/Input.tsx:16-19 | false for a missing field; otherwise list membership or substring occurrence in the field's transformed value |
| InputLogic.Check | src/components/Input.tsx:36-38 | the value is appended after the unchanged copy |
| InputLogic.CurrentIndex | src/components/Input.tsx:39 | `currentValue.indexOf(val)`: on a list, the first index holding the value and -1 exactly when it is absent; on a string, the first position where the value occurs and -1 exactly when it occurs nowhere; never past the end of a non-empty spread copy |
| InputLogic.Uncheck | src/components/Input.tsx:33-39 | exactly one entry of the spread copy is removed: for a list, the first occurrence of a value it holds, else the last entry; for a string, the character at the first match position, else the last character; an empty copy stays empty |
| InputLogic.NextValue | src/components/Input.tsx:31-45 | a text change stores the target's value; a checkbox change appends or splices a copy of the raw value, and fails only when the field is missing |
| InputLogic.UncheckRemovesOne | src/components/Input.tsx:39 | unchecking a present value removes exactly one occurrence of it and nothing else |
| InputLogic.CheckUncheck | src/components/Input.tsx:36-39 | checking and then unchecking a value the list lacked gives the list back |
| InputLogic.UncheckAbsentDropsLast | src/components/Input.tsx:39 | unchecking a value the list lacks drops its last entry |
| InputLogic.UncheckDuplicateStaysChecked | src/components/Input.tsx:16-39 | unchecking a value the list holds twice or more keeps an occurrence, so the box still reads as checked |
| InputLogic.StoredCheckboxReadsBack | src/components/Input.tsx:16-42 | for a field with no transform whose raw value is a list: checking stores a value that then reads as checked; unchecking a value the list holds exactly once stores a value that then reads as unchecked |
| ValueView.GetFields | src/components/Value.tsx:37-43 | one name gives a one-element list; a list of names is looked up element by element, in order |
| ValueView.Reduce | src/components/Value.tsx:20-28 | one value and one status are appended: the field's own, or '' and INVALID for a missing field |
| ValueView.FieldVals | src/components/Value.tsx:30-35 | one value and one status per field, with the same length and order as the fields |
| ValueView.Unwrap | src/components/Value.tsx:45-48 | a one-element list stands for its element; any other list is kept whole |
| ValueView.RenderValue | src/components/Value.tsx:50-56 | without a render function the values are rendered as they are; with one, the render function's output is returned |
| ValueView.RewrapUnwrap | src/components/Value.tsx:45-48 | unwrapping loses nothing |
| ValueView.RenderArguments | src/components/Value.tsx:50-56 | one field reaches the render function as a bare value and status; several reach it as lists in field order |
| ValueView.MissingFieldShown | src/components/Value.tsx:20-28 | a name with no field shows as '' with status INVALID |
| ValueView.TwoFieldsExample | src/components/Value.tsx:50-56 | DIRTY 'hi' and INVALID 'nope' reach the render function as `['hi', 'nope']` and `[DIRTY, INVALID]` |
| StatusView.RenderStatus | src/components/Status.tsx:15-29 | with no name the form status is rendered; with a name the field's status, or nothing when the field is missing |
| StatusView.FieldStatusBelowForm | src/components/Status.tsx:15-29 | a field's shown status never outranks the form's |

## Left out

- React rendering, context, effects and hooks are not modelled. This includes the form reducer and its result merging, and the policy of when to validate on change or blur. They are UI plumbing around the data layer.
- Promise scheduling is not modelled. A pending validation is paired with its settled result, and interleavings of in-flight validations are not considered.
- The library behind `prop.set`/`prop.get`/`prop.del` is not part of this model. `prop.del` on the flat field map is rebuilt as `Dict.Del`; `prop.set` and `prop.get` on nested objects are rebuilt in `Trees` from how the form layer uses them:
  - a leaf met on the way to a deeper path is replaced by an object;
  - a path that ends at an object reads as missing, so `prop.get` returns its default there.
- The older collection's `validate()` (src/FormFields.tsx:43-74) is left out. Its reducer returns the variable still being initialised instead of the new object, so its result is not defined behaviour.
- src/Form.tsx is left out: it is an unfinished class component.
- The option scan of the Select component is left out: it is event plumbing over DOM elements.
- Two expectations in the tests are not encoded, because the code does otherwise:
  - validation on `setValue`: `setValue` never validates;
  - a new object from a passing legacy validation: the code returns the same field.
- Field storage is a flat map keyed by the sanitized key.
  - In react-ferms, a key with two or more dots is written back through a dotted path and nests.
  - Statements about values and errors therefore take the paths of the fields as given.
- JavaScript places integer-like object keys first in iteration order. The model keeps plain insertion order.
- Status ranks: the `FormStatus` enum declares PRISTINE=0, DIRTY=1 and INVALID=2 but also uses a VALIDATING member it does not declare. The model gives VALIDATING rank 3, above INVALID, as a fourth member would get.
- Error values that are `Error` objects or rendered elements are opaque tokens. The falsy non-string values (`false`, `null`, `0`) are one token, `Falsy`. Validator specifications other than functions are covered only through the strategy parameter.
- Operations on a missing key throw a `TypeError` in the JavaScript code. They return `None` here, except `remove` and `getField`, which do not throw.
- The Input component's raw list is never mutated by the toggle. Dafny values are immutable, so this needs no separate statement.
- `noop`, `alwaysValid` and the default strategy carry no contract of their own. Their behaviour is stated where they are used: `FormField.ValueIsTransformedRaw`, `FormField.NoValidatorPasses` and `FormField.DefaultStrategyAppliesValidator`.
- Spreading a string (`LegacyFormFields.Contribution`, `InputLogic.Spread`) agrees with JavaScript: a Dafny `char` is a Unicode scalar value, and JavaScript spreads a string by code points.
- InputLogic.CurrentIndex: on a string raw value, positions count Unicode scalar values, while `String.prototype.indexOf` counts UTF-16 code units. When a character outside the Basic Multilingual Plane precedes the match, the JavaScript index, and so the entry `splice` removes from the spread copy, differs from the model's.
- Validators, transforms and strategies that throw, and strategy promises that reject, are not modelled: each is a total function here. In the JavaScript code such an exception propagates out of `validate()`/`validateField()`: in the current design the collection is left with the field VALIDATING and the promise rejects; in the older design the call itself throws.
- InputLogic.StoredCheckboxReadsBack: promises nothing when unchecking a value the list holds more than once, since one occurrence stays (`InputLogic.UncheckDuplicateStaysChecked`), nor when the raw value is a string, since the copy is spread into characters while `indexOf` searches the unspread string.

=== FILE: dict.dfy ===
/** An insertion-ordered dictionary keyed by strings: the model of a
    JavaScript object used as a map. Writing an existing key keeps its place;
    writing a new key appends it; deleting drops it. */
module Dict {
  import opened Wrappers

  datatype Entry<V> = Entry(key: string, val: V)

  type Dict<V> = seq<Entry<V>>

  /** The keys in iteration order (`Object.keys`). */
  function Keys<V>(d: Dict<V>): (r: seq<string>)
    ensures |r| == |d|
  {
    if |d| == 0 then [] else [d[0].key] + Keys(d[1..])
  }

  /** The i-th key is the key of the i-th entry. */
  lemma {:induction false} KeysAt<V>(d: Dict<V>)
    ensures forall i :: 0 <= i < |d| ==> Keys(d)[i] == d[i].key
    decreases |d|
  {
    if |d| > 0 {
      KeysAt(d[1..]);
    }
  }

  /** No key occurs twice, as in every JavaScript object. */
  predicate Unique<V>(d: Dict<V>) {
    |d| == 0 || (d[0].key !in Keys(d[1..]) && Unique(d[1..]))
  }

  /** The value stored under `k`: the first entry with that key. */
  function Get<V>(d: Dict<V>, k: string): (r: Option<V>)
    ensures r.Some? <==> k in Keys(d)
    ensures r.Some? ==> Entry(k, r.value) in d
  {
    if |d| == 0 then None
    else if d[0].key == k then Some(d[0].val)
    else
      assert Keys(d) == [d[0].key] + Keys(d[1..]);
      Get(d[1..], k)
  }

  /** `obj[k] = v` on a copy: the first entry with key `k` is replaced in
      place, or a new entry is appended (see `PutOrder`). */
  function Put<V>(d: Dict<V>, k: string, v: V): (r: Dict<V>)
    ensures Get(r, k) == Some(v)
    ensures forall k' :: k' != k ==> Get(r, k') == Get(d, k')
    decreases |d|
  {
    if |d| == 0 then [Entry(k, v)]
    else if d[0].key == k then [Entry(k, v)] + d[1..]
    else
      var r := [d[0]] + Put(d[1..], k, v);
      assert r[1..] == Put(d[1..], k, v);
      r
  }

  /** Where `Put` leaves the written key: in its old place, so the key
      sequence is unchanged, or appended at the end. */
  lemma {:induction false} PutOrder<V>(d: Dict<V>, k: string, v: V)
    ensures k in Keys(d) ==> Keys(Put(d, k, v)) == Keys(d)
    ensures k !in Keys(d) ==> Put(d, k, v) == d + [Entry(k, v)]
    decreases |d|
  {
    if |d| > 0 {
      var r := Put(d, k, v);
      assert Keys(d) == [d[0].key] + Keys(d[1..]);
      if d[0].key == k {
        assert r[1..] == d[1..];
      } else {
        var t := Put(d[1..], k, v);
        PutOrder(d[1..], k, v);
        assert r[1..] == t;
        assert Keys(r) == [d[0].key] + Keys(t);
        if k !in Keys(d) {
          assert d == [d[0]] + d[1..];
        }
      }
    }
  }

  /** Writing a key keeps the keys unique. */
  lemma {:induction false} PutUnique<V>(d: Dict<V>, k: string, v: V)
    requires Unique(d)
    ensures Unique(Put(d, k, v))
    ensures forall x :: x in Keys(Put(d, k, v)) ==> x in Keys(d) || x == k
    decreases |d|
  {
    if |d| > 0 && d[0].key != k {
      var t := Put(d[1..], k, v);
      PutUnique(d[1..], k, v);
      assert Keys(d) == [d[0].key] + Keys(d[1..]);
      assert Put(d, k, v)[1..] == t;
      assert Keys(Put(d, k, v)) == [d[0].key] + Keys(t);
    } else if |d| > 0 {
      assert Put(d, k, v)[1..] == d[1..];
      assert Keys(d) == [d[0].key] + Keys(d[1..]);
      assert Keys(Put(d, k, v)) == [k] + Keys(d[1..]);
    }
  }

  /** `delete obj[k]` on a copy: every entry with key `k` is dropped, the
      others keep their order. */
  function Del<V>(d: Dict<V>, k: string): (r: Dict<V>)
    ensures Get(r, k) == None
    ensures forall k' :: k' != k ==> Get(r, k') == Get(d, k')
    ensures k !in Keys(d) ==> r == d
    ensures forall x :: x in Keys(r) ==> x in Keys(d) && x != k
    ensures Unique(d) ==> Unique(r)
  {
    if |d| == 0 then d
    else if d[0].key == k then Del(d[1..], k)
    else
      var r := [d[0]] + Del(d[1..], k);
      assert Keys(d) == [d[0].key] + Keys(d[1..]);
      assert r[1..] == Del(d[1..], k);
      r
  }

  /** In a dictionary with unique keys, deleting the key of entry `i` removes
      that entry and keeps the others in their order. */
  lemma {:induction false} DelAt<V>(d: Dict<V>, i: nat)
    requires Unique(d) && i < |d|
    ensures Del(d, d[i].key) == d[..i] + d[i + 1..]
    decreases i
  {
    var k := d[i].key;
    assert Keys(d) == [d[0].key] + Keys(d[1..]);
    if i == 0 {
      assert d[..0] + d[1..] == d[1..];
    } else {
      KeysAt(d[1..]);
      assert Keys(d[1..])[i - 1] == k;
      assert d[0].key != k;
      DelAt(d[1..], i - 1);
      assert d[1..][i - 1] == d[i];
      assert d[..i] == [d[0]] + d[1..][..i - 1];
      assert d[i + 1..] == d[1..][i..];
    }
  }

  /** Deleting a present key of a dictionary with unique keys removes its one
      entry and keeps the others in their order. */
  lemma DelOrder<V>(d: Dict<V>, k: string)
    ensures Unique(d) && k in Keys(d) ==>
              exists i :: 0 <= i < |d| && d[i].key == k && Del(d, k) == d[..i] + d[i + 1..]
  {
    if Unique(d) && k in Keys(d) {
      var i :| 0 <= i < |Keys(d)| && Keys(d)[i] == k;
      KeysAt(d);
      DelAt(d, i);
    }
  }

  /** The same keys in the same order, each value rewritten by `f`. */
  function MapValues<V, W>(d: Dict<V>, f: V -> W): (r: Dict<W>)
    ensures |r| == |d|
    ensures forall i :: 0 <= i < |d| ==> r[i] == Entry(d[i].key, f(d[i].val))
  {
    seq(|d|, i requires 0 <= i < |d| => Entry(d[i].key, f(d[i].val)))
  }

  /** Lookup through `MapValues` rewrites the looked-up value. */
  lemma {:induction false} GetMapValues<V, W>(d: Dict<V>, f: V -> W, k: string)
    ensures Get(MapValues(d, f), k) == if Get(d, k).Some? then Some(f(Get(d, k).value)) else None
    decreases |d|
  {
    if |d| > 0 && d[0].key != k {
      assert MapValues(d, f)[1..] == MapValues(d[1..], f);
      GetMapValues(d[1..], f, k);
    }
  }

  /** Removing a key that was just appended restores the dictionary. */
  lemma DelAfterAppend<V>(d: Dict<V>, k: string, v: V)
    requires k !in Keys(d)
    ensures Del(d + [Entry(k, v)], k) == d
    decreases |d|
  {
    if |d| > 0 {
      assert (d + [Entry(k, v)])[1..] == d[1..] + [Entry(k, v)];
      assert Keys(d) == [d[0].key] + Keys(d[1..]);
      DelAfterAppend(d[1..], k, v);
    }
  }

  /** `MapValues` keeps the keys in order. */
  lemma {:induction false} KeysMapValues<V, W>(d: Dict<V>, f: V -> W)
    ensures Keys(MapValues(d, f)) == Keys(d)
    decreases |d|
  {
    if |d| > 0 {
      assert MapValues(d, f)[1..] == MapValues(d[1..], f);
      KeysMapValues(d[1..], f);
    }
  }
}

=== FILE: form_field.dfy ===
/** One form field of the asynchronous design (src/data/FormField.tsx): an
    immutable record whose every setter returns a copy, and whose validation
    runs in two steps — a synchronous mark as VALIDATING, then a completion
    once the validator's verdict is known. */
module FormField {
  import opened Wrappers
  import opened Types
  import Helpers

  /** The stored attributes; `None` is an attribute that was never set. */
  datatype Field = Field(
    key: string,
    defaultValidateOn: Trigger,
    validationStrategy: Strategy,
    multiple: bool,
    errors: Option<seq<ErrorItem>>,
    status: Option<Status>,
    transform: Option<Transform>,
    validate: Option<Validator>,
    validateOn: Option<Trigger>,
    value: Option<Value>)

  /** A settled validation: the updated field and whether it passed. */
  datatype Validation = Validation(field: Field, valid: bool)

  /** The result of `validate()`: the field marked VALIDATING, and the
      validation its promise resolves to. */
  datatype Pending = Pending(field: Field, promise: Validation)

  /** A field holding only the attributes every field must have. */
  function Bare(key: string, defaultValidateOn: Trigger, strategy: Strategy, multiple: bool): Field {
    Field(key, defaultValidateOn, strategy, multiple, None, None, None, None, None, None)
  }

  // ---- getters ----

  function ErrorsOf(f: Field): seq<ErrorItem> {
    f.errors.GetOr([])
  }

  function StatusOf(f: Field): Status {
    f.status.GetOr(Pristine)
  }

  function IsValid(f: Field): bool {
    StatusOf(f) != Invalid
  }

  /** The effective trigger: the field's own, else the form-wide default. */
  function ValidateOn(f: Field): Trigger {
    f.validateOn.GetOr(f.defaultValidateOn)
  }

  function EmptyValue(f: Field): Value {
    if f.multiple then List([]) else Str("")
  }

  /** `value || emptyValue` */
  function RawValue(f: Field): Value {
    if Truthy(f.value) then f.value.value else EmptyValue(f)
  }

  function TransformOf(f: Field): Transform {
    f.transform.GetOr(Helpers.Noop)
  }

  /** The transformed value. */
  function ValueOf(f: Field): Value {
    TransformOf(f)(RawValue(f))
  }

  function ValidatorOf(f: Field): Validator {
    f.validate.GetOr(Helpers.AlwaysValid)
  }

  /** What the strategy answers for the field: the validator (or
      `alwaysValid`) applied through the strategy to the transformed value.
      react-ferms awaits it; here it is the settled answer. */
  function Outcome(f: Field): Verdict {
    f.validationStrategy(ValueOf(f), ValidatorOf(f))
  }

  // ---- validation ----

  /** The synchronous half of `validate()`. */
  function MarkValidating(f: Field): (r: Field)
    ensures StatusOf(r) == Validating && IsValid(r)
    ensures r.(status := f.status) == f
  {
    f.(status := Some(Validating))
  }

  /** The completion of `validateAsync()` once the verdict is known. */
  function Complete(f: Field, verdict: Verdict): (r: Validation)
    ensures r.valid <==> verdict == Pass
    ensures StatusOf(r.field) == if r.valid then Dirty else Invalid
    ensures IsValid(r.field) == r.valid
    ensures verdict.Pass? ==> ErrorsOf(r.field) == []
    ensures verdict.Fail? && verdict.failure.Errors? ==> ErrorsOf(r.field) == verdict.failure.items
    ensures verdict.Fail? && verdict.failure.Single? ==> ErrorsOf(r.field) == [verdict.failure.item]
    ensures r.field.(status := f.status, errors := f.errors) == f
  {
    var valid := verdict == Pass;
    var errors := if valid then [] else Normalize(verdict.failure);
    Validation(f.(status := Some(if valid then Dirty else Invalid), errors := Some(errors)), valid)
  }

  /** `validateAsync()`: the strategy's verdict on the field, settled. */
  function ValidateAsync(f: Field): (r: Validation)
    ensures r.valid <==> f.validationStrategy(ValueOf(f), ValidatorOf(f)) == Pass
    ensures r.field.(status := f.status, errors := f.errors) == f
  {
    Complete(f, Outcome(f))
  }

  /** `validate()`: a copy marked VALIDATING, and its pending completion. */
  function Validate(f: Field): (r: Pending)
    ensures StatusOf(r.field) == Validating
    ensures r.field.(status := f.status) == f
    ensures r.promise.valid <==> Outcome(f) == Pass
    ensures StatusOf(r.promise.field) == if r.promise.valid then Dirty else Invalid
    ensures r.promise.field.(status := f.status, errors := f.errors) == f
  {
    var marked := MarkValidating(f);
    Pending(marked, ValidateAsync(marked))
  }

  // ---- setters ----

  function SetKey(f: Field, k: string): (r: Field)
    ensures r.key == k
    ensures r.(key := f.key) == f
  {
    f.(key := k)
  }

  /** Stores a new raw value; a PRISTINE field becomes DIRTY, any other
      status (INVALID included) is kept. Validation is not triggered here. */
  function SetValue(f: Field, v: Value): (r: Field)
    ensures RawValue(r) == if Truthy(Some(v)) then v else EmptyValue(f)
    ensures StatusOf(r) == if StatusOf(f) == Pristine then Dirty else StatusOf(f)
    ensures r.(value := f.value, status := f.status) == f
  {
    var updated := f.(value := Some(v));
    if StatusOf(f) == Pristine then updated.(status := Some(Dirty)) else updated
  }

  function SetTransform(f: Field, t: Option<Transform>): (r: Field)
    ensures r.transform == t
    ensures RawValue(r) == RawValue(f)
    ensures t.Some? ==> ValueOf(r) == t.value(RawValue(f))
    ensures t.None? ==> ValueOf(r) == RawValue(f)
    ensures r.(transform := f.transform) == f
  {
    f.(transform := t)
  }

  function SetValidate(f: Field, v: Option<Validator>): (r: Field)
    ensures r.validate == v
    ensures v.None? ==> ValidatorOf(r) == Helpers.AlwaysValid
    ensures r.(validate := f.validate) == f
  {
    f.(validate := v)
  }

  function SetValidateOn(f: Field, t: Option<Trigger>): (r: Field)
    ensures t.Some? ==> ValidateOn(r) == t.value
    ensures t.None? ==> ValidateOn(r) == f.defaultValidateOn
    ensures r.(validateOn := f.validateOn) == f
  {
    f.(validateOn := t)
  }

  function SetDefaultValidateOn(f: Field, t: Trigger): (r: Field)
    ensures f.validateOn.Some? ==> ValidateOn(r) == ValidateOn(f)
    ensures f.validateOn.None? ==> ValidateOn(r) == t
    ensures r.(defaultValidateOn := f.defaultValidateOn) == f
  {
    f.(defaultValidateOn := t)
  }

  function SetValidationStrategy(f: Field, s: Strategy): (r: Field)
    ensures Outcome(r) == s(ValueOf(f), ValidatorOf(f))
    ensures r.(validationStrategy := f.validationStrategy) == f
  {
    f.(validationStrategy := s)
  }

  // ---- properties ----

  /** A field with no optional attribute is PRISTINE, error-free and valid,
      follows the default trigger, holds '' (or [] when multiple) and, with no
      validator under the default strategy, validates successfully. */
  lemma BareDefaults(key: string, on: Trigger, multiple: bool)
    ensures var f := Bare(key, on, Helpers.DefaultStrategy, multiple);
      && StatusOf(f) == Pristine && ErrorsOf(f) == [] && IsValid(f)
      && ValidateOn(f) == on
      && RawValue(f) == (if multiple then List([]) else Str(""))
      && ValueOf(f) == RawValue(f)
      && Validate(f).promise.valid
  {
  }

  /** A stored status reads as itself and an unset one as PRISTINE; the field
      is valid in every status but INVALID; unset errors read as `[]`. */
  lemma StatusAndErrorsRead(f: Field)
    ensures f.status.Some? ==> StatusOf(f) == f.status.value
    ensures f.status.None? ==> StatusOf(f) == Pristine
    ensures IsValid(f) <==> StatusOf(f) in {Pristine, Dirty, Validating}
    ensures f.errors.Some? ==> ErrorsOf(f) == f.errors.value
    ensures f.errors.None? ==> ErrorsOf(f) == []
  {
  }

  /** The field's own trigger wins; without one the form-wide default
      applies. */
  lemma TriggerFallback(f: Field)
    ensures f.validateOn.Some? ==> ValidateOn(f) == f.validateOn.value
    ensures f.validateOn.None? ==> ValidateOn(f) == f.defaultValidateOn
  {
  }

  /** A truthy stored value reads as itself; an unset or '' one reads as the
      empty value, `[]` for a multiple field and '' otherwise. Storing what was
      read changes nothing. */
  lemma RawValueFallback(f: Field)
    ensures Truthy(f.value) ==> RawValue(f) == f.value.value
    ensures !Truthy(f.value) ==> RawValue(f) == EmptyValue(f)
    ensures EmptyValue(f) == (if f.multiple then List([]) else Str(""))
    ensures RawValue(f.(value := Some(RawValue(f)))) == RawValue(f)
  {
  }

  /** Without a transform the value is the raw value; with one it is the
      transform of the raw value. */
  lemma ValueIsTransformedRaw(f: Field)
    ensures f.transform.None? ==> ValueOf(f) == RawValue(f)
    ensures f.transform.Some? ==> ValueOf(f) == f.transform.value(RawValue(f))
  {
  }

  /** With no validator and the default strategy, validation always passes:
      the field settles DIRTY with no errors. */
  lemma NoValidatorPasses(f: Field)
    requires f.validate.None? && f.validationStrategy == Helpers.DefaultStrategy
    ensures Validate(f).promise.valid
    ensures StatusOf(Validate(f).promise.field) == Dirty
    ensures ErrorsOf(Validate(f).promise.field) == []
  {
  }

  /** Under the default strategy the validator receives the transformed value. */
  lemma DefaultStrategyAppliesValidator(f: Field)
    requires f.validate.Some? && f.validationStrategy == Helpers.DefaultStrategy
    ensures Outcome(f) == f.validate.value(ValueOf(f))
  {
  }

  /** A validator may fail with an empty list: the field is then INVALID but
      carries no error. */
  lemma FailureWithoutErrors(f: Field)
    ensures var r := Complete(f, Fail(Errors([])));
      !r.valid && StatusOf(r.field) == Invalid && ErrorsOf(r.field) == []
  {
  }
}

=== FILE: form_fields.dfy ===
/** The field collection of the asynchronous design (src/data/FormFields.tsx):
    fields stored under their sanitized key, plus the form-wide defaults,
    default trigger and validation strategy. Every operation returns a new
    collection; status, values and errors are derived from the fields. */
module FormFields {
  import opened Wrappers
  import opened Types
  import opened Dict
  import opened Trees
  import Helpers
  import FormField

  type Field = FormField.Field

  /** Constructor options; each may be left out. */
  datatype Options = Options(
    defaults: Option<Tree<Value>>,
    fields: Option<Dict<Field>>,
    validateOn: Option<Trigger>,
    validationStrategy: Option<Strategy>)

  datatype Collection = Collection(
    defaults: Tree<Value>,
    fields: Dict<Field>,
    validateOn: Trigger,
    validationStrategy: Strategy)

  /** The options of `add`. */
  datatype AddOpts = AddOpts(
    key: string,
    value: Option<Value>,
    transform: Option<Transform>,
    validate: Option<Validator>,
    validateOn: Option<Trigger>,
    multiple: bool)

  /** A settled validation of the collection. */
  datatype Validation = Validation(fields: Collection, valid: bool)

  /** The result of `validate()` / `validateField()`: the collection with the
      fields marked VALIDATING, and the validation its promise resolves to. */
  datatype Pending = Pending(fields: Collection, promise: Validation)

  function NoOptions(): Options {
    Options(None, None, None, None)
  }

  /** `new FormFields(opts)` */
  function Create(opts: Options): Collection {
    Collection(
      opts.defaults.GetOr(EmptyTree()),
      opts.fields.GetOr([]),
      opts.validateOn.GetOr(Submit),
      opts.validationStrategy.GetOr(Helpers.DefaultStrategy))
  }

  /** `r` has the configuration of `c`, and every entry of `c` except the one
      under `k` is unchanged. */
  ghost predicate Agree(c: Collection, r: Collection, k: string) {
    && r.(fields := c.fields) == c
    && forall k' :: k' != k ==> Get(r.fields, k') == Get(c.fields, k')
  }

  /** As `Agree`, and the key sequence is unchanged: only the entry under `k`
      was rewritten, in place. */
  ghost predicate InPlace(c: Collection, r: Collection, k: string) {
    Agree(c, r, k) && Keys(r.fields) == Keys(c.fields)
  }

  function GetField(c: Collection, key: string): Option<Field> {
    Get(c.fields, Helpers.SanitizeKey(key))
  }

  /** Stores `f` under the sanitized key. */
  function Update(c: Collection, key: string, f: Field): (r: Collection)
    ensures GetField(r, key) == Some(f)
    ensures Agree(c, r, Helpers.SanitizeKey(key))
    ensures GetField(c, key).Some? ==> Keys(r.fields) == Keys(c.fields)
    ensures GetField(c, key).None? ==> r.fields == c.fields + [Entry(Helpers.SanitizeKey(key), f)]
  {
    PutOrder(c.fields, Helpers.SanitizeKey(key), f);
    c.(fields := Put(c.fields, Helpers.SanitizeKey(key), f))
  }

  // ---- add / remove ----

  /** The field `add` stores. */
  function NewField(c: Collection, opts: AddOpts): Field {
    FormField.Field(
      opts.key,
      c.validateOn,
      c.validationStrategy,
      opts.multiple,
      None,
      Some(if Truthy(opts.value) then Dirty else Pristine),
      opts.transform,
      opts.validate,
      opts.validateOn,
      Some(if Truthy(opts.value) then opts.value.value else GetKey(c.defaults, opts.key, Str(""))))
  }

  /** `add`: a no-op for a multi-value key already present, otherwise the new
      field is stored under the sanitized key and nothing else changes. */
  function Add(c: Collection, opts: AddOpts): (r: Collection)
    ensures opts.multiple && GetField(c, opts.key).Some? ==> r == c
    ensures !(opts.multiple && GetField(c, opts.key).Some?) ==>
              GetField(r, opts.key) == Some(NewField(c, opts)) && Agree(c, r, Helpers.SanitizeKey(opts.key))
    ensures GetField(c, opts.key).Some? ==> Keys(r.fields) == Keys(c.fields)
    ensures GetField(c, opts.key).None? ==>
              r.fields == c.fields + [Entry(Helpers.SanitizeKey(opts.key), NewField(c, opts))]
  {
    if opts.multiple && GetField(c, opts.key).Some? then c
    else Update(c, opts.key, NewField(c, opts))
  }

  /** `remove`: drops the entry under the sanitized key; an absent key leaves
      the collection as it is. */
  function Remove(c: Collection, key: string): (r: Collection)
    ensures GetField(r, key).None?
    ensures Agree(c, r, Helpers.SanitizeKey(key))
    ensures GetField(c, key).None? ==> r == c
    ensures Unique(c.fields) && GetField(c, key).Some? ==>
              exists i :: 0 <= i < |c.fields| && c.fields[i].key == Helpers.SanitizeKey(key)
                       && r.fields == c.fields[..i] + c.fields[i + 1..]
  {
    DelOrder(c.fields, Helpers.SanitizeKey(key));
    c.(fields := Del(c.fields, Helpers.SanitizeKey(key)))
  }

  // ---- per-key setters ----

  /** Applies `g` to the field under `key` and stores the result in place;
      `None` when there is no such field (the JavaScript code then fails with a
      TypeError on `undefined`). */
  function Modify(c: Collection, key: string, g: Field -> Field): (r: Option<Collection>)
    ensures r.None? <==> GetField(c, key).None?
    ensures r.Some? ==> GetField(r.value, key) == Some(g(GetField(c, key).value))
    ensures r.Some? ==> InPlace(c, r.value, Helpers.SanitizeKey(key))
  {
    match GetField(c, key)
    case None => None
    case Some(f) => Some(Update(c, key, g(f)))
  }

  function SetValue(c: Collection, key: string, v: Value): (r: Option<Collection>)
    ensures r.None? <==> GetField(c, key).None?
    ensures r.Some? ==> GetField(r.value, key) == Some(FormField.SetValue(GetField(c, key).value, v))
    ensures r.Some? ==> InPlace(c, r.value, Helpers.SanitizeKey(key))
  {
    Modify(c, key, f => FormField.SetValue(f, v))
  }

  function SetTransform(c: Collection, key: string, t: Option<Transform>): (r: Option<Collection>)
    ensures r.None? <==> GetField(c, key).None?
    ensures r.Some? ==> GetField(r.value, key) == Some(FormField.SetTransform(GetField(c, key).value, t))
    ensures r.Some? ==> InPlace(c, r.value, Helpers.SanitizeKey(key))
  {
    Modify(c, key, f => FormField.SetTransform(f, t))
  }

  function SetValidation(c: Collection, key: string, v: Option<Validator>): (r: Option<Collection>)
    ensures r.None? <==> GetField(c, key).None?
    ensures r.Some? ==> GetField(r.value, key) == Some(FormField.SetValidate(GetField(c, key).value, v))
    ensures r.Some? ==> InPlace(c, r.value, Helpers.SanitizeKey(key))
  {
    Modify(c, key, f => FormField.SetValidate(f, v))
  }

  function SetValidateOn(c: Collection, key: string, on: Option<Trigger>): (r: Option<Collection>)
    ensures r.None? <==> GetField(c, key).None?
    ensures r.Some? ==> GetField(r.value, key) == Some(FormField.SetValidateOn(GetField(c, key).value, on))
    ensures r.Some? ==> InPlace(c, r.value, Helpers.SanitizeKey(key))
  {
    Modify(c, key, f => FormField.SetValidateOn(f, on))
  }

  // ---- form-wide setters ----

  /** `setValidationStrategy`: a missing strategy means the default one; every
      field is given the strategy, keys and order unchanged. */
  function SetValidationStrategy(c: Collection, s: Option<Strategy>): (r: Collection)
    ensures s.Some? ==> r.validationStrategy == s.value
    ensures s.None? ==> r.validationStrategy == Helpers.DefaultStrategy
    ensures Keys(r.fields) == Keys(c.fields)
    ensures forall i :: 0 <= i < |c.fields| ==>
              r.fields[i].val == FormField.SetValidationStrategy(c.fields[i].val, r.validationStrategy)
    ensures r.defaults == c.defaults && r.validateOn == c.validateOn
  {
    var strat := s.GetOr(Helpers.DefaultStrategy);
    KeysMapValues(c.fields, f => FormField.SetValidationStrategy(f, strat));
    c.(fields := MapValues(c.fields, f => FormField.SetValidationStrategy(f, strat)),
       validationStrategy := strat)
  }

  /** `setDefaultValidateOn`: a missing trigger means 'submit'; every field
      is given the new default, keys and order unchanged. */
  function SetDefaultValidateOn(c: Collection, on: Option<Trigger>): (r: Collection)
    ensures on.Some? ==> r.validateOn == on.value
    ensures on.None? ==> r.validateOn == Submit
    ensures Keys(r.fields) == Keys(c.fields)
    ensures forall i :: 0 <= i < |c.fields| ==>
              r.fields[i].val == FormField.SetDefaultValidateOn(c.fields[i].val, r.validateOn)
    ensures r.defaults == c.defaults && r.validationStrategy == c.validationStrategy
  {
    var t := on.GetOr(Submit);
    KeysMapValues(c.fields, f => FormField.SetDefaultValidateOn(f, t));
    c.(fields := MapValues(c.fields, f => FormField.SetDefaultValidateOn(f, t)), validateOn := t)
  }

  /** `setDefaults`: replaces the defaults (missing means `{}`); the fields
      already present keep their values. */
  function SetDefaults(c: Collection, d: Option<Tree<Value>>): (r: Collection)
    ensures d.Some? ==> r.defaults == d.value
    ensures d.None? ==> r.defaults == EmptyTree()
    ensures r.fields == c.fields
    ensures r.validateOn == c.validateOn && r.validationStrategy == c.validationStrategy
  {
    c.(defaults := d.GetOr(EmptyTree()))
  }

  // ---- validation ----

  /** Every settled field passed (the `valid` flag of the reduce). */
  function AllValid(rs: Dict<FormField.Validation>): (r: bool)
    ensures r <==> forall i :: 0 <= i < |rs| ==> rs[i].val.valid
    decreases |rs|
  {
    if |rs| == 0 then true
    else AllValid(rs[..|rs| - 1]) && rs[|rs| - 1].val.valid
  }

  function SettledField(v: FormField.Validation): Field {
    v.field
  }

  /** `validateAsync`: folds the settled field validations, one per key, into
      the collection. */
  function ValidateAsync(c: Collection, results: Dict<FormField.Validation>): (r: Validation)
    ensures r.valid <==> forall i :: 0 <= i < |results| ==> results[i].val.valid
    ensures Keys(r.fields.fields) == Keys(results)
    ensures forall i :: 0 <= i < |results| ==> r.fields.fields[i].val == results[i].val.field
    ensures r.fields.(fields := c.fields) == c
  {
    KeysMapValues(results, SettledField);
    Validation(c.(fields := MapValues(results, SettledField)), AllValid(results))
  }

  /** `validate()`: every field is marked VALIDATING under the same key, and
      the promise is the settlement of the marked fields (what it holds is
      stated by `ValidateSettles`). */
  function Validate(c: Collection): (r: Pending)
    ensures Keys(r.fields.fields) == Keys(c.fields)
    ensures forall i :: 0 <= i < |c.fields| ==>
              r.fields.fields[i].val == FormField.MarkValidating(c.fields[i].val)
    ensures r.fields.(fields := c.fields) == c
    ensures r.promise == ValidateAsync(c, MapValues(r.fields.fields, FormField.ValidateAsync))
  {
    var marked := MapValues(c.fields, FormField.MarkValidating);
    KeysMapValues(c.fields, FormField.MarkValidating);
    Pending(c.(fields := marked), ValidateAsync(c, MapValues(marked, FormField.ValidateAsync)))
  }

  /** The promise of `validate()` settles each field by its own verdict,
      under the same key and with the configuration kept, and is valid iff
      every field passed. */
  lemma ValidateSettles(c: Collection)
    ensures var r := Validate(c).promise;
      && Keys(r.fields.fields) == Keys(c.fields)
      && (forall i :: 0 <= i < |c.fields| ==>
            r.fields.fields[i].val == FormField.Complete(c.fields[i].val, FormField.Outcome(c.fields[i].val)).field)
      && r.fields.(fields := c.fields) == c
      && (r.valid <==> forall i :: 0 <= i < |c.fields| ==> FormField.Outcome(c.fields[i].val) == Pass)
  {
    SettleAll(c.fields);
  }

  /** Marking every field and then settling each one settles every field by
      its own verdict, under the same keys. */
  lemma SettleAll(fs: Dict<Field>)
    ensures var results := MapValues(MapValues(fs, FormField.MarkValidating), FormField.ValidateAsync);
      && Keys(results) == Keys(fs)
      && forall i :: 0 <= i < |fs| ==>
           results[i].val == FormField.Complete(fs[i].val, FormField.Outcome(fs[i].val))
  {
    var marked := MapValues(fs, FormField.MarkValidating);
    KeysMapValues(fs, FormField.MarkValidating);
    KeysMapValues(marked, FormField.ValidateAsync);
    forall i | 0 <= i < |fs|
      ensures MapValues(marked, FormField.ValidateAsync)[i].val
                == FormField.Complete(fs[i].val, FormField.Outcome(fs[i].val))
    {
      SettleMarked(fs[i].val);
    }
  }

  /** Settling a field marked VALIDATING is settling the field itself. */
  lemma SettleMarked(f: Field)
    ensures FormField.ValidateAsync(FormField.MarkValidating(f)) == FormField.Complete(f, FormField.Outcome(f))
  {
    var m := FormField.MarkValidating(f);
    assert FormField.Outcome(m) == FormField.Outcome(f);
  }

  /** `validateFieldAsync`: stores the settled field under its key. */
  function ValidateFieldAsync(c: Collection, key: string, result: FormField.Validation): (r: Validation)
    ensures GetField(r.fields, key) == Some(result.field)
    ensures Agree(c, r.fields, Helpers.SanitizeKey(key))
    ensures GetField(c, key).Some? ==> Keys(r.fields.fields) == Keys(c.fields)
    ensures GetField(c, key).None? ==> r.fields.fields == c.fields + [Entry(Helpers.SanitizeKey(key), result.field)]
    ensures r.valid == result.valid
  {
    Validation(Update(c, key, result.field), result.valid)
  }

  /** `validateField(key)`: only the field under `key` is marked and then
      settled; `None` when there is no such field. */
  function ValidateField(c: Collection, key: string): (r: Option<Pending>)
    ensures r.None? <==> GetField(c, key).None?
    ensures r.Some? ==> var f := GetField(c, key).value;
      && GetField(r.value.fields, key) == Some(FormField.MarkValidating(f))
      && InPlace(c, r.value.fields, Helpers.SanitizeKey(key))
      && GetField(r.value.promise.fields, key) == Some(FormField.Complete(f, FormField.Outcome(f)).field)
      && InPlace(c, r.value.promise.fields, Helpers.SanitizeKey(key))
      && (r.value.promise.valid <==> FormField.Outcome(f) == Pass)
  {
    match GetField(c, key)
    case None => None
    case Some(f) =>
      var p := FormField.Validate(f);
      Some(Pending(Update(c, key, p.field), ValidateFieldAsync(c, key, p.promise)))
  }

  // ---- derived getters ----

  /** The maximum status over the entries, PRISTINE when there are none. */
  function StatusOver(es: Dict<Field>): (r: Status)
    ensures forall i :: 0 <= i < |es| ==> Rank(FormField.StatusOf(es[i].val)) <= Rank(r)
    ensures |es| == 0 ==> r == Pristine
    ensures |es| > 0 ==> exists i :: 0 <= i < |es| && FormField.StatusOf(es[i].val) == r
    decreases |es|
  {
    if |es| == 0 then Pristine
    else MaxStatus(StatusOver(es[..|es| - 1]), FormField.StatusOf(es[|es| - 1].val))
  }

  /** The `status` getter. */
  function StatusOf(c: Collection): Status {
    StatusOver(c.fields)
  }

  /** The path a field is written to in `values` and `errors`: its original
      dotted key, not the sanitized storage key. */
  function PathOf(e: Entry<Field>): seq<string> {
    Split(e.val.key)
  }

  function ValueLeaf(f: Field): Option<Value> {
    Some(FormField.ValueOf(f))
  }

  function ErrorLeaf(f: Field): Option<seq<ErrorItem>> {
    if |FormField.ErrorsOf(f)| > 0 then Some(FormField.ErrorsOf(f)) else None
  }

  /** The `values` getter: a nested object of the transformed values. */
  function Values(c: Collection): Tree<Value> {
    Assemble(c.fields, PathOf, ValueLeaf)
  }

  /** The `errors` getter: a nested object of the non-empty error lists. */
  function Errors(c: Collection): Tree<seq<ErrorItem>> {
    Assemble(c.fields, PathOf, ErrorLeaf)
  }

  // ---- properties ----

  /** A collection built with no options is empty: `{}` values and errors,
      PRISTINE, trigger 'submit', `{}` defaults and the default strategy. */
  lemma EmptyCollection()
    ensures var c := Create(NoOptions());
      && Values(c) == EmptyTree() && Errors(c) == EmptyTree() && StatusOf(c) == Pristine
      && c.validateOn == Submit && c.defaults == EmptyTree()
      && c.validationStrategy == Helpers.DefaultStrategy
  {
  }

  /** Each option given to the constructor is used as it is; each one left
      out takes its default. */
  lemma CreateOptions(opts: Options)
    ensures var c := Create(opts);
      && c.defaults == (if opts.defaults.Some? then opts.defaults.value else EmptyTree())
      && c.fields == (if opts.fields.Some? then opts.fields.value else [])
      && c.validateOn == (if opts.validateOn.Some? then opts.validateOn.value else Submit)
      && c.validationStrategy ==
           (if opts.validationStrategy.Some? then opts.validationStrategy.value else Helpers.DefaultStrategy)
  {
  }

  /** Rebuilding a collection from its own options gives it back, as the
      operations that spread `this.options` into a new collection rely on. */
  lemma CreateFromOwnOptions(c: Collection)
    ensures Create(Options(Some(c.defaults), Some(c.fields), Some(c.validateOn), Some(c.validationStrategy))) == c
  {
  }

  /** `getField` finds a field exactly when the sanitized key is stored; keys
      that sanitize alike find the same field, and a dot-free key is looked
      up as it is. */
  lemma GetFieldSanitizes(c: Collection, key: string)
    ensures GetField(c, key).Some? <==> Helpers.SanitizeKey(key) in Keys(c.fields)
    ensures forall key' :: Helpers.SanitizeKey(key') == Helpers.SanitizeKey(key) ==>
              GetField(c, key') == GetField(c, key)
    ensures '.' !in key ==> GetField(c, key) == Get(c.fields, key)
  {
  }

  /** The form is PRISTINE iff every field is, VALIDATING iff some field is,
      and never ranks below any field. */
  lemma StatusRanks(c: Collection)
    ensures StatusOf(c) == Pristine <==>
              forall i :: 0 <= i < |c.fields| ==> FormField.StatusOf(c.fields[i].val) == Pristine
    ensures StatusOf(c) == Validating <==>
              exists i :: 0 <= i < |c.fields| && FormField.StatusOf(c.fields[i].val) == Validating
    ensures forall i :: 0 <= i < |c.fields| ==> Rank(FormField.StatusOf(c.fields[i].val)) <= Rank(StatusOf(c))
  {
  }

  /** Adding a multi-value field twice is adding it once. */
  lemma AddMultipleIdempotent(c: Collection, opts: AddOpts)
    requires opts.multiple
    ensures Add(Add(c, opts), opts) == Add(c, opts)
  {
  }

  /** The field `add` stores is PRISTINE iff no non-empty value was given,
      takes the given value when there is one, and follows its own trigger
      or else the form's. */
  lemma AddedField(c: Collection, opts: AddOpts)
    requires !(opts.multiple && GetField(c, opts.key).Some?)
    ensures GetField(Add(c, opts), opts.key).Some?
    ensures var f := GetField(Add(c, opts), opts.key).value;
      && (FormField.StatusOf(f) == Pristine <==> !Truthy(opts.value))
      && (FormField.StatusOf(f) == Dirty <==> Truthy(opts.value))
      && (Truthy(opts.value) ==> FormField.RawValue(f) == opts.value.value)
      && FormField.ValidateOn(f) == (if opts.validateOn.Some? then opts.validateOn.value else c.validateOn)
      && FormField.ErrorsOf(f) == [] && f.key == opts.key
  {
  }

  /** Without a non-empty value, `add` starts from the defaults at the key's
      path, even though the field stays PRISTINE. */
  lemma AddUsesDefault(c: Collection, opts: AddOpts, d: Value)
    requires !(opts.multiple && GetField(c, opts.key).Some?)
    requires !Truthy(opts.value)
    requires GetPath(c.defaults, Split(opts.key)) == Some(d) && Truthy(Some(d))
    ensures GetField(Add(c, opts), opts.key).Some?
    ensures FormField.RawValue(GetField(Add(c, opts), opts.key).value) == d
    ensures FormField.StatusOf(GetField(Add(c, opts), opts.key).value) == Pristine
  {
  }

  /** Without a value or a default, `add` stores '' ([] when multiple). */
  lemma AddWithoutDefault(c: Collection, opts: AddOpts)
    requires !(opts.multiple && GetField(c, opts.key).Some?)
    requires !Truthy(opts.value)
    requires GetPath(c.defaults, Split(opts.key)).None?
    ensures GetField(Add(c, opts), opts.key).Some?
    ensures FormField.RawValue(GetField(Add(c, opts), opts.key).value)
              == if opts.multiple then List([]) else Str("")
  {
  }

  /** Removing a field that was just added to a collection without it gives
      the collection back. */
  lemma RemoveAfterAdd(c: Collection, opts: AddOpts)
    requires GetField(c, opts.key).None?
    ensures Remove(Add(c, opts), opts.key) == c
  {
    var k := Helpers.SanitizeKey(opts.key);
    assert Add(c, opts).fields == c.fields + [Entry(k, NewField(c, opts))];
    DelAfterAppend(c.fields, k, NewField(c, opts));
  }

  /** `add` and `remove` keep the storage keys unique. */
  lemma AddRemoveKeepKeysUnique(c: Collection, opts: AddOpts, key: string)
    requires Unique(c.fields)
    ensures Unique(Add(c, opts).fields)
    ensures Unique(Remove(c, key).fields)
  {
    if !(opts.multiple && GetField(c, opts.key).Some?) {
      PutUnique(c.fields, Helpers.SanitizeKey(opts.key), NewField(c, opts));
    }
  }

  /** One INVALID field makes the form INVALID, unless some field is still
      VALIDATING. */
  lemma InvalidDominates(c: Collection, i: nat)
    requires i < |c.fields| && FormField.StatusOf(c.fields[i].val) == Invalid
    requires forall j :: 0 <= j < |c.fields| ==> FormField.StatusOf(c.fields[j].val) != Validating
    ensures StatusOf(c) == Invalid
  {
  }

  /** While a whole-form validation is in flight, a non-empty form is
      VALIDATING. */
  lemma ValidatingForm(c: Collection)
    requires |c.fields| > 0
    ensures StatusOf(Validate(c).fields) == Validating
  {
    var m := Validate(c).fields.fields;
    assert FormField.StatusOf(m[0].val) == Validating;
  }

  /** Over settled fields (each DIRTY or INVALID) the form status is INVALID
      iff some field is INVALID, and DIRTY otherwise. */
  lemma SettledStatusOver(es: Dict<Field>)
    requires |es| > 0
    requires forall i :: 0 <= i < |es| ==> FormField.StatusOf(es[i].val) in {Dirty, Invalid}
    ensures StatusOver(es) == Invalid <==> exists i :: 0 <= i < |es| && FormField.StatusOf(es[i].val) == Invalid
    ensures StatusOver(es) == Dirty <==> forall i :: 0 <= i < |es| ==> FormField.StatusOf(es[i].val) == Dirty
  {
    var st := StatusOver(es);
    var j :| 0 <= j < |es| && FormField.StatusOf(es[j].val) == st;
  }

  /** Once settled, a non-empty form is DIRTY when every field passed and
      INVALID otherwise; an empty form is valid and PRISTINE. */
  lemma SettledFormStatus(c: Collection)
    ensures var r := Validate(c).promise;
      && (|c.fields| == 0 ==> r.valid && StatusOf(r.fields) == Pristine)
      && (|c.fields| > 0 ==> (r.valid <==> StatusOf(r.fields) == Dirty))
      && (|c.fields| > 0 ==> (!r.valid <==> StatusOf(r.fields) == Invalid))
  {
    var r := Validate(c).promise;
    SettledFields(c);
    if |c.fields| > 0 {
      SettledStatusOver(r.fields.fields);
    }
  }

  /** After `validate()` settles, each field is DIRTY if it passed and
      INVALID otherwise, and the form is valid iff every field is DIRTY. */
  lemma SettledFields(c: Collection)
    ensures var r := Validate(c).promise;
      && |r.fields.fields| == |c.fields|
      && (forall i :: 0 <= i < |c.fields| ==> FormField.StatusOf(r.fields.fields[i].val) in {Dirty, Invalid})
      && (r.valid <==> forall i :: 0 <= i < |c.fields| ==> FormField.StatusOf(r.fields.fields[i].val) == Dirty)
  {
    ValidateSettles(c);
    var s := Validate(c).promise.fields.fields;
    assert |s| == |c.fields| by {
      assert Keys(s) == Keys(c.fields);
    }
    forall i | 0 <= i < |s|
      ensures FormField.StatusOf(s[i].val) in {Dirty, Invalid}
      ensures FormField.StatusOf(s[i].val) == Dirty <==> FormField.Outcome(c.fields[i].val) == Pass
    {
      var f := c.fields[i].val;
      assert s[i].val == FormField.Complete(f, FormField.Outcome(f)).field;
    }
  }

  /** A field whose path no other field's path touches can be read back from
      `values` at its dotted key. */
  lemma ValuesLookup(c: Collection, i: nat)
    requires i < |c.fields| && Isolated(c.fields, PathOf, i)
    ensures GetPath(Values(c), Split(c.fields[i].val.key)) == Some(FormField.ValueOf(c.fields[i].val))
  {
    AssembleLookup(c.fields, PathOf, ValueLeaf, i);
  }

  /** Such a field appears in `errors` exactly when its error list is
      non-empty, and then with that list. */
  lemma ErrorsLookup(c: Collection, i: nat)
    requires i < |c.fields| && Isolated(c.fields, PathOf, i)
    ensures var errs := FormField.ErrorsOf(c.fields[i].val);
      GetPath(Errors(c), Split(c.fields[i].val.key)) == if |errs| > 0 then Some(errs) else None
  {
    AssembleLookup(c.fields, PathOf, ErrorLeaf, i);
  }

  /** Nothing appears in `values` or `errors` at a path no field touches. */
  lemma NothingElse(c: Collection, q: seq<string>)
    requires forall j :: 0 <= j < |c.fields| ==> Independent(q, PathOf(c.fields[j]))
    ensures GetPath(Values(c), q) == None
    ensures GetPath(Errors(c), q) == None
  {
    AssembleAbsent(c.fields, PathOf, ValueLeaf, q);
    AssembleAbsent(c.fields, PathOf, ErrorLeaf, q);
  }

  /** After `setDefaultValidateOn`, each field follows its own trigger or
      else the new default. */
  lemma DefaultTriggerReachesFields(c: Collection, on: Option<Trigger>)
    ensures var r := SetDefaultValidateOn(c, on);
      forall i :: 0 <= i < |c.fields| ==>
        FormField.ValidateOn(r.fields[i].val)
          == if c.fields[i].val.validateOn.Some? then c.fields[i].val.validateOn.value
             else if on.Some? then on.value else Submit
  {
  }

  /** After `setValidationStrategy`, every field is judged by the new
      strategy on its own value and validator. */
  lemma StrategyReachesFields(c: Collection, s: Option<Strategy>)
    ensures var r := SetValidationStrategy(c, s);
      forall i :: 0 <= i < |c.fields| ==>
        FormField.Outcome(r.fields[i].val)
          == r.validationStrategy(FormField.ValueOf(c.fields[i].val), FormField.ValidatorOf(c.fields[i].val))
  {
  }

  /** `setDefaults` leaves values, errors and status as they were. */
  lemma SetDefaultsKeepsFields(c: Collection, d: Option<Tree<Value>>)
    ensures Values(SetDefaults(c, d)) == Values(c)
    ensures Errors(SetDefaults(c, d)) == Errors(c)
    ensures StatusOf(SetDefaults(c, d)) == StatusOf(c)
  {
  }
}

=== FILE: helpers.dfy ===
/** The helpers of src/helpers/index.tsx and the default validation strategy
    of src/validation-strategies/default.tsx. */
module Helpers {
  import opened Wrappers
  import opened Types

  /** The identity transform. */
  function Noop(v: Value): Value {
    v
  }

  /** The validator used when a field has none: every value passes. */
  function AlwaysValid(v: Value): Verdict {
    Pass
  }

  /** The default strategy: the validator specification is a function and is
      applied to the value. */
  function DefaultStrategy(value: Value, validation: Validator): Verdict {
    validation(value)
  }

  /** `String.prototype.indexOf` for one character; `None` stands for -1. */
  function FirstIndexOf(s: string, c: char): (r: Option<nat>)
    ensures r.Some? ==> r.value < |s| && s[r.value] == c && c !in s[..r.value]
    ensures r.None? <==> c !in s
  {
    if |s| == 0 then None
    else if s[0] == c then Some(0)
    else
      match FirstIndexOf(s[1..], c)
      case None => None
      case Some(i) =>
        assert s[1..][..i] == s[1..i + 1];
        assert s[..i + 1] == [s[0]] + s[1..i + 1];
        Some(i + 1)
  }

  /** `k.replace('.', '-')`: a string pattern replaces only its first
      occurrence. */
  function SanitizeKey(k: string): (r: string)
    ensures |r| == |k|
    ensures '.' !in k ==> r == k
    // every position that changed held the first '.' and now holds '-'
    ensures forall j :: 0 <= j < |k| && r[j] != k[j] ==>
              k[j] == '.' && r[j] == '-' && '.' !in k[..j]
    // and the first '.', if there is one, did change
    ensures forall j :: 0 <= j < |k| && k[j] == '.' && '.' !in k[..j] ==> r[j] == '-'
  {
    match FirstIndexOf(k, '.')
    case None => k
    case Some(i) =>
      k[i := '-']
  }

  /** True when `k` has at most one '.'. */
  predicate AtMostOneDot(k: string) {
    forall i, j :: 0 <= i < j < |k| && k[i] == '.' ==> k[j] != '.'
  }

  /** A key with at most one '.' sanitizes to a single path segment. */
  lemma SanitizeKeyDotFree(k: string)
    requires AtMostOneDot(k)
    ensures '.' !in SanitizeKey(k)
  {
  }

  /** Two different keys can share one storage slot. */
  lemma SanitizeKeyCollides()
    ensures "a.b" != "a-b" && SanitizeKey("a.b") == SanitizeKey("a-b")
  {
    assert FirstIndexOf("a.b", '.') == Some(1) by {
      assert "a.b"[0] != '.' && "a.b"[1..] == ".b";
    }
    assert FirstIndexOf("a-b", '.') == None by {
      assert "a-b"[0] != '.' && "a-b"[1] != '.' && "a-b"[2] != '.';
    }
  }
}

=== FILE: input_logic.dfy ===
/** The pure logic of the Input component (src/components/Input.tsx): whether
    a checkbox is shown checked, and the value a change event stores. The
    React plumbing around it is not modelled. */
module InputLogic {
  import opened Wrappers
  import opened Types
  import FormField

  // ---- JavaScript array and string primitives ----

  /** `Array.prototype.indexOf`: the first index holding `x`, -1 when none. */
  function IndexOf<T(==)>(xs: seq<T>, x: T): (r: int)
    ensures -1 <= r < |xs|
    ensures r >= 0 ==> xs[r] == x && x !in xs[..r]
    ensures r == -1 <==> x !in xs
  {
    if |xs| == 0 then -1
    else if xs[0] == x then 0
    else
      var i := IndexOf(xs[1..], x);
      if i < 0 then -1
      else
        assert xs[..i + 1] == [xs[0]] + xs[1..][..i];
        i + 1
  }

  /** `t` occurs in `s` starting at position `i`. */
  predicate MatchAt(s: string, t: string, i: nat) {
    i + |t| <= |s| && s[i..i + |t|] == t
  }

  /** `String.prototype.indexOf` for a search string: the first position
      where `t` occurs, -1 when none; the empty string occurs at 0. */
  function IndexOfSub(s: string, t: string): (r: int)
    ensures -1 <= r <= |s|
    ensures r >= 0 ==> MatchAt(s, t, r) && forall j: nat :: j < r ==> !MatchAt(s, t, j)
    ensures r == -1 <==> forall j: nat :: j <= |s| ==> !MatchAt(s, t, j)
  {
    if |t| <= |s| && s[..|t|] == t then
      assert MatchAt(s, t, 0) by { assert s[0..|t|] == s[..|t|]; }
      0
    else if |s| == 0 then -1
    else
      ShiftMatch(s, t);
      var i := IndexOfSub(s[1..], t);
      if i < 0 then -1 else i + 1
  }

  /** A match in the tail is a match one position further in the whole. */
  lemma ShiftMatch(s: string, t: string)
    requires |s| > 0
    ensures forall j: nat :: 0 < j ==> (MatchAt(s, t, j) <==> MatchAt(s[1..], t, j - 1))
  {
    forall j: nat | 0 < j ensures MatchAt(s, t, j) <==> MatchAt(s[1..], t, j - 1) {
      if j + |t| <= |s| {
        assert s[1..][j - 1..j - 1 + |t|] == s[j..j + |t|];
      }
    }
  }

  /** `Array.prototype.splice(start, 1)`: a negative start counts from the
      end, a start past the end removes nothing. */
  function Splice1<T>(xs: seq<T>, start: int): (r: seq<T>)
    ensures 0 <= start < |xs| ==>
              |r| == |xs| - 1
              && (forall k :: 0 <= k < start ==> r[k] == xs[k])
              && (forall k :: start <= k < |r| ==> r[k] == xs[k + 1])
    ensures start == -1 && |xs| > 0 ==> r == xs[..|xs| - 1]
    ensures start >= |xs| ==> r == xs
    ensures |xs| == 0 ==> r == []
  {
    var a := if start < 0 then (if |xs| + start < 0 then 0 else |xs| + start)
             else (if start > |xs| then |xs| else start);
    if a < |xs| then xs[..a] + xs[a + 1..] else xs
  }

  // ---- values as the component sees them ----

  /** `value.includes(val)`: membership for a list, substring for a string. */
  predicate Includes(v: Value, x: string) {
    match v
    case List(items) => IndexOf(items, x) >= 0
    case Str(s) => IndexOfSub(s, x) >= 0
  }

  /** `[...currentValue]`: a list is copied, a string is spread into its
      characters. */
  function Spread(v: Value): (r: seq<string>)
    ensures v.List? ==> r == v.items
    ensures v.Str? ==> |r| == |v.s| && forall k :: 0 <= k < |r| ==> r[k] == [v.s[k]]
  {
    match v
    case List(items) => items
    case Str(s) => seq(|s|, k requires 0 <= k < |s| => [s[k]])
  }

  /** `currentValue.indexOf(val)` on the unspread value. */
  function CurrentIndex(v: Value, x: string): (r: int)
    ensures -1 <= r
    ensures |Spread(v)| > 0 ==> r < |Spread(v)|
    ensures v.List? ==> (r == -1 <==> x !in v.items)
    ensures v.List? && r >= 0 ==> v.items[r] == x && x !in v.items[..r]
    ensures v.Str? && r >= 0 ==> MatchAt(v.s, x, r) && forall j: nat :: j < r ==> !MatchAt(v.s, x, j)
    ensures v.Str? ==> (r == -1 <==> forall j: nat :: j <= |v.s| ==> !MatchAt(v.s, x, j))
  {
    match v
    case List(items) => IndexOf(items, x)
    case Str(s) =>
      IndexOfSub(s, x)
  }

  /** `isChecked`: a missing field counts as an empty list. */
  function IsChecked(val: string, field: Option<FormField.Field>): (r: bool)
    ensures field.None? ==> !r
    ensures field.Some? && FormField.ValueOf(field.value).List? ==>
              (r <==> val in FormField.ValueOf(field.value).items)
    ensures field.Some? && FormField.ValueOf(field.value).Str? ==>
              (r <==> exists j: nat :: j <= |FormField.ValueOf(field.value).s|
                                   && MatchAt(FormField.ValueOf(field.value).s, val, j))
  {
    match field
    case None => false
    case Some(f) => Includes(FormField.ValueOf(f), val)
  }

  /** A change event on the input. */
  datatype Event = CheckboxChange(checked: bool) | TextChange(target: string)

  /** Checking a box appends its value. */
  function Check(xs: seq<string>, val: string): (r: seq<string>)
    ensures |r| == |xs| + 1 && r[..|xs|] == xs && r[|xs|] == val
  {
    xs + [val]
  }

  /** Unchecking a box removes the entry `indexOf` finds: exactly one entry
      of the spread copy, the first occurrence of a value a list holds, the
      last entry when the value is not found, and nothing from an empty
      copy. */
  function Uncheck(v: Value, val: string): (r: seq<string>)
    ensures |Spread(v)| == 0 ==> r == []
    ensures |Spread(v)| > 0 ==>
              exists k :: 0 <= k < |Spread(v)| && r == Spread(v)[..k] + Spread(v)[k + 1..]
    ensures v.List? && val in v.items ==>
              exists k :: 0 <= k < |v.items| && v.items[k] == val && val !in v.items[..k]
                       && r == v.items[..k] + v.items[k + 1..]
    ensures v.List? && val !in v.items && |v.items| > 0 ==> r == v.items[..|v.items| - 1]
    ensures v.Str? && 0 <= IndexOfSub(v.s, val) < |v.s| ==>
              r == Spread(v)[..IndexOfSub(v.s, val)] + Spread(v)[IndexOfSub(v.s, val) + 1..]
    ensures v.Str? && IndexOfSub(v.s, val) == -1 && |v.s| > 0 ==> r == Spread(v)[..|v.s| - 1]
  {
    var xs := Spread(v);
    var i := CurrentIndex(v, val);
    var k := if i >= 0 then i else |xs| - 1;
    assert |xs| > 0 ==> Splice1(xs, i) == xs[..k] + xs[k + 1..];
    Splice1(xs, i)
  }

  /** The value the change handler stores: a text change stores the input's
      value; a checkbox change edits a copy of the field's raw value. `None`
      when a checkbox has no field to read (the JavaScript code throws there). */
  function NextValue(field: Option<FormField.Field>, val: string, e: Event): (r: Option<Value>)
    ensures e.TextChange? ==> r == Some(Str(e.target))
    ensures e.CheckboxChange? ==> (r.None? <==> field.None?)
    ensures e.CheckboxChange? && e.checked && field.Some? ==>
              r.value.List? && r.value.items == Check(Spread(FormField.RawValue(field.value)), val)
    ensures e.CheckboxChange? && !e.checked && field.Some? ==>
              r.value.List? && r.value.items == Uncheck(FormField.RawValue(field.value), val)
  {
    match e
    case TextChange(target) => Some(Str(target))
    case CheckboxChange(checked) =>
      match field
      case None => None
      case Some(f) =>
        var current := FormField.RawValue(f);
        Some(List(if checked then Check(Spread(current), val) else Uncheck(current, val)))
  }

  // ---- properties ----

  /** Unchecking a value present in a list removes exactly one occurrence of
      it and nothing else. */
  lemma UncheckRemovesOne(xs: seq<string>, val: string)
    requires val in xs
    ensures |Uncheck(List(xs), val)| == |xs| - 1
    ensures multiset(Uncheck(List(xs), val)) == multiset(xs) - multiset{val}
  {
    var i := IndexOf(xs, val);
    assert xs == xs[..i] + [val] + xs[i + 1..];
    assert Uncheck(List(xs), val) == xs[..i] + xs[i + 1..];
  }

  /** Checking then unchecking a value the list did not hold gives the list
      back. */
  lemma {:induction false} CheckUncheck(xs: seq<string>, val: string)
    requires val !in xs
    ensures Uncheck(List(Check(xs, val)), val) == xs
  {
    var ys := Check(xs, val);
    assert val !in ys[..|xs|];
    assert IndexOf(ys, val) == |xs|;
    assert ys[..|xs|] == xs;
  }

  /** Unchecking a value the list does not hold drops its last entry:
      `indexOf` answers -1 and `splice(-1, 1)` removes from the end. */
  lemma UncheckAbsentDropsLast(xs: seq<string>, val: string)
    requires val !in xs && |xs| > 0
    ensures Uncheck(List(xs), val) == xs[..|xs| - 1]
  {
  }

  /** Unchecking a value the list holds more than once keeps one of its
      occurrences, so the box still reads as checked. */
  lemma UncheckDuplicateStaysChecked(xs: seq<string>, val: string)
    requires multiset(xs)[val] >= 2
    ensures val in Uncheck(List(xs), val)
  {
    UncheckRemovesOne(xs, val);
    assert multiset(Uncheck(List(xs), val))[val] >= 1;
  }

  /** Without a transform, a checked box reads as checked once its value is
      stored, and an unchecked one reads as unchecked when the list held its
      value once. */
  lemma StoredCheckboxReadsBack(f: FormField.Field, val: string, checked: bool)
    requires f.transform.None? && FormField.RawValue(f).List?
    requires !checked ==> multiset(FormField.RawValue(f).items)[val] == 1
    ensures var next := NextValue(Some(f), val, CheckboxChange(checked));
      IsChecked(val, Some(FormField.SetValue(f, next.value))) == checked
  {
    var xs := FormField.RawValue(f).items;
    var next := NextValue(Some(f), val, CheckboxChange(checked));
    var g := FormField.SetValue(f, next.value);
    assert FormField.RawValue(g) == next.value;
    if checked {
      assert next.value.items[|xs|] == val;
    } else {
      UncheckRemovesOne(xs, val);
      assert multiset(next.value.items)[val] == 0;
    }
  }
}

=== FILE: legacy_form_field.dfy ===
/** One form field of the older synchronous design (src/FormField.tsx):
    validation runs inline, a passing field is returned as it is, and a
    failing verdict is stored as the field's errors without normalisation. */
module LegacyFormField {
  import opened Wrappers
  import opened Types
  import Helpers

  datatype Field = Field(
    key: string,
    errors: Option<Failure>,
    status: Option<Status>,
    transform: Option<Transform>,
    validate: Option<Validator>,
    validateOn: Option<Trigger>,
    value: Option<Value>)

  datatype Validation = Validation(field: Field, valid: bool)

  /** A field holding only its key. */
  function Bare(key: string): Field {
    Field(key, None, None, None, None, None, None)
  }

  // ---- getters ----

  /** `errors || []`: the stored errors as they are, an empty list when
      unset or falsy. */
  function ErrorsOf(f: Field): Failure {
    if f.errors.Some? && TruthyFailure(f.errors.value) then f.errors.value else Errors([])
  }

  function StatusOf(f: Field): Status {
    f.status.GetOr(Pristine)
  }

  function IsValid(f: Field): bool {
    StatusOf(f) != Invalid
  }

  /** The field's own trigger, else 'submit'. */
  function ValidateOn(f: Field): Trigger {
    f.validateOn.GetOr(Submit)
  }

  /** `value || ''` */
  function RawValue(f: Field): Value {
    if Truthy(f.value) then f.value.value else Str("")
  }

  function ValueOf(f: Field): Value {
    f.transform.GetOr(Helpers.Noop)(RawValue(f))
  }

  /** The validator (or `alwaysValid`) applied to the transformed value. */
  function Outcome(f: Field): Verdict {
    f.validate.GetOr(Helpers.AlwaysValid)(ValueOf(f))
  }

  // ---- validation ----

  /** `validate()`: a pass returns the very same field; a failure returns a
      copy that is INVALID and stores the verdict's raw failure as errors,
      which read back as an empty list when the failure is falsy. */
  function Validate(f: Field): (r: Validation)
    ensures r.valid <==> Outcome(f) == Pass
    ensures r.valid ==> r.field == f
    ensures !r.valid ==> StatusOf(r.field) == Invalid && !IsValid(r.field)
    ensures !r.valid ==> r.field.errors == Some(Outcome(f).failure)
    ensures !r.valid && TruthyFailure(Outcome(f).failure) ==> ErrorsOf(r.field) == Outcome(f).failure
    ensures !r.valid && !TruthyFailure(Outcome(f).failure) ==> ErrorsOf(r.field) == Errors([])
    ensures r.field.(status := f.status, errors := f.errors) == f
  {
    match Outcome(f)
    case Pass => Validation(f, true)
    case Fail(failure) => Validation(f.(status := Some(Invalid), errors := Some(failure)), false)
  }

  // ---- setters ----

  function SetKey(f: Field, k: string): (r: Field)
    ensures r.key == k
    ensures r.(key := f.key) == f
  {
    f.(key := k)
  }

  function SetValidateOn(f: Field, t: Option<Trigger>): (r: Field)
    ensures t.Some? ==> ValidateOn(r) == t.value
    ensures t.None? ==> ValidateOn(r) == Submit
    ensures r.(validateOn := f.validateOn) == f
  {
    f.(validateOn := t)
  }

  /** Stores a new value; unlike the current field, the status is untouched. */
  function SetValue(f: Field, v: string): (r: Field)
    ensures RawValue(r) == Str(v)
    ensures StatusOf(r) == StatusOf(f)
    ensures r.(value := f.value) == f
  {
    f.(value := Some(Str(v)))
  }

  function SetTransform(f: Field, t: Option<Transform>): (r: Field)
    ensures t.Some? ==> ValueOf(r) == t.value(RawValue(f))
    ensures t.None? ==> ValueOf(r) == RawValue(f)
    ensures r.(transform := f.transform) == f
  {
    f.(transform := t)
  }

  function SetValidate(f: Field, v: Option<Validator>): (r: Field)
    ensures v.Some? ==> Outcome(r) == v.value(ValueOf(f))
    ensures v.None? ==> Outcome(r) == Pass
    ensures r.(validate := f.validate) == f
  {
    f.(validate := v)
  }

  // ---- properties ----

  /** A field holding only its key is PRISTINE, error-free, valid, validates
      on 'submit', holds '' and passes validation. */
  lemma BareDefaults(key: string)
    ensures var f := Bare(key);
      && StatusOf(f) == Pristine && ErrorsOf(f) == Errors([]) && IsValid(f)
      && ValidateOn(f) == Submit && RawValue(f) == Str("") && ValueOf(f) == Str("")
      && Validate(f).valid
  {
  }

  /** A stored status reads as itself and an unset one as PRISTINE; the field
      is valid in every status but INVALID. Stored errors read as themselves
      when truthy and as `[]` otherwise, so what is read is never falsy. */
  lemma StatusAndErrorsRead(f: Field)
    ensures f.status.Some? ==> StatusOf(f) == f.status.value
    ensures f.status.None? ==> StatusOf(f) == Pristine
    ensures IsValid(f) <==> StatusOf(f) in {Pristine, Dirty, Validating}
    ensures f.errors.Some? && TruthyFailure(f.errors.value) ==> ErrorsOf(f) == f.errors.value
    ensures f.errors.None? || !TruthyFailure(f.errors.value) ==> ErrorsOf(f) == Errors([])
    ensures TruthyFailure(ErrorsOf(f))
  {
  }

  /** The field's own trigger wins; without one it is 'submit'. */
  lemma TriggerFallback(f: Field)
    ensures f.validateOn.Some? ==> ValidateOn(f) == f.validateOn.value
    ensures f.validateOn.None? ==> ValidateOn(f) == Submit
  {
  }

  /** A truthy stored value reads as itself, an unset or '' one as ''; storing
      what was read changes nothing. The value is the transform of the raw
      value, or the raw value itself without a transform. */
  lemma RawValueFallback(f: Field)
    ensures Truthy(f.value) ==> RawValue(f) == f.value.value
    ensures !Truthy(f.value) ==> RawValue(f) == Str("")
    ensures RawValue(f.(value := Some(RawValue(f)))) == RawValue(f)
    ensures f.transform.None? ==> ValueOf(f) == RawValue(f)
    ensures f.transform.Some? ==> ValueOf(f) == f.transform.value(RawValue(f))
  {
  }

  /** A validator that fails with '' leaves the field INVALID with no
      errors to read. */
  lemma EmptyStringFailureReadsEmpty(f: Field)
    requires Outcome(f) == Fail(Single(Text("")))
    ensures !Validate(f).valid
    ensures StatusOf(Validate(f).field) == Invalid
    ensures ErrorsOf(Validate(f).field) == Errors([])
  {
  }

  /** A field that failed once stays INVALID, with its old errors, when a
      later validation passes: a pass returns the field unchanged. */
  lemma PassKeepsStaleStatus(f: Field)
    requires Outcome(f) == Pass && StatusOf(f) == Invalid
    ensures Validate(f).valid
    ensures !IsValid(Validate(f).field)
    ensures ErrorsOf(Validate(f).field) == ErrorsOf(f)
  {
  }
}

=== FILE: legacy_form_fields.dfy ===
/** The field collection of the older synchronous design
    (src/FormFields.tsx). Unlike the current collection it stores the form
    status as an attribute, `globalStatus`, instead of deriving it from the
    fields, and it builds `values` from the sanitized storage keys. */
module LegacyFormFields {
  import opened Wrappers
  import opened Types
  import opened Dict
  import opened Trees
  import Helpers
  import LegacyFormField

  type Field = LegacyFormField.Field

  datatype Collection = Collection(
    defaults: Tree<Value>,
    fields: Dict<Field>,
    globalValidateOn: Trigger,
    globalStatus: Status)

  datatype Validation = Validation(fields: Collection, valid: bool)

  /** `new FormFields(defaults?, globalValidateOn?, fields?, globalStatus?)` */
  function Create(defaults: Option<Tree<Value>>, globalValidateOn: Option<Trigger>,
                  fields: Option<Dict<Field>>, globalStatus: Option<Status>): Collection {
    Collection(defaults.GetOr(EmptyTree()), fields.GetOr([]), globalValidateOn.GetOr(Submit), globalStatus.GetOr(Pristine))
  }

  /** Same defaults and trigger, and every entry except the one under `k`
      unchanged; the global status is stated separately. */
  ghost predicate Agree(c: Collection, r: Collection, k: string) {
    && r.defaults == c.defaults
    && r.globalValidateOn == c.globalValidateOn
    && forall k' :: k' != k ==> Get(r.fields, k') == Get(c.fields, k')
  }

  function GetField(c: Collection, key: string): Option<Field> {
    Get(c.fields, Helpers.SanitizeKey(key))
  }

  /** `update(key, field, status = globalStatus)` */
  function Update(c: Collection, key: string, f: Field, status: Option<Status>): (r: Collection)
    ensures GetField(r, key) == Some(f)
    ensures Agree(c, r, Helpers.SanitizeKey(key))
    ensures status.None? ==> r.globalStatus == c.globalStatus
    ensures status.Some? ==> r.globalStatus == status.value
    ensures GetField(c, key).Some? ==> Keys(r.fields) == Keys(c.fields)
    ensures GetField(c, key).None? ==> r.fields == c.fields + [Entry(Helpers.SanitizeKey(key), f)]
  {
    PutOrder(c.fields, Helpers.SanitizeKey(key), f);
    Collection(c.defaults, Put(c.fields, Helpers.SanitizeKey(key), f), c.globalValidateOn, status.GetOr(c.globalStatus))
  }

  /** The `status` getter: the stored global status, not derived from the
      fields. */
  function StatusOf(c: Collection): Status {
    c.globalStatus
  }

  // ---- add / remove ----

  /** The field `add(key, value = '', transform = noop, validate =
      alwaysValid, validateOn = globalValidateOn)` stores. */
  function NewField(c: Collection, key: string, value: Option<string>, transform: Option<Transform>,
                    validate: Option<Validator>, validateOn: Option<Trigger>): Field {
    var v := value.GetOr("");
    LegacyFormField.Field(
      key,
      None,
      Some(if v == "" then Pristine else Dirty),
      Some(transform.GetOr(Helpers.Noop)),
      Some(validate.GetOr(Helpers.AlwaysValid)),
      Some(validateOn.GetOr(c.globalValidateOn)),
      Some(if v != "" then Str(v) else GetKey(c.defaults, key, Str(""))))
  }

  /** `add`: stores a new field under the sanitized key; the global status is
      kept whatever the new field's status. */
  function Add(c: Collection, key: string, value: Option<string>, transform: Option<Transform>,
               validate: Option<Validator>, validateOn: Option<Trigger>): (r: Collection)
    ensures GetField(r, key) == Some(NewField(c, key, value, transform, validate, validateOn))
    ensures Agree(c, r, Helpers.SanitizeKey(key))
    ensures StatusOf(r) == StatusOf(c)
    ensures GetField(c, key).Some? ==> Keys(r.fields) == Keys(c.fields)
    ensures GetField(c, key).None? ==>
              r.fields == c.fields + [Entry(Helpers.SanitizeKey(key), NewField(c, key, value, transform, validate, validateOn))]
  {
    Update(c, key, NewField(c, key, value, transform, validate, validateOn), None)
  }

  /** `remove`: drops the entry under the sanitized key and keeps defaults,
      trigger and global status. */
  function Remove(c: Collection, key: string): (r: Collection)
    ensures GetField(r, key).None?
    ensures Agree(c, r, Helpers.SanitizeKey(key))
    ensures StatusOf(r) == StatusOf(c)
    ensures GetField(c, key).None? ==> r == c
    ensures Unique(c.fields) && GetField(c, key).Some? ==>
              exists i :: 0 <= i < |c.fields| && c.fields[i].key == Helpers.SanitizeKey(key)
                       && r.fields == c.fields[..i] + c.fields[i + 1..]
  {
    DelOrder(c.fields, Helpers.SanitizeKey(key));
    c.(fields := Del(c.fields, Helpers.SanitizeKey(key)))
  }

  // ---- per-key operations ----

  /** `setValue`: rewrites the field's value and promotes a PRISTINE form to
      DIRTY; `None` when there is no such field. */
  function SetValue(c: Collection, key: string, v: string): (r: Option<Collection>)
    ensures r.None? <==> GetField(c, key).None?
    ensures r.Some? ==> GetField(r.value, key) == Some(LegacyFormField.SetValue(GetField(c, key).value, v))
    ensures r.Some? ==> Agree(c, r.value, Helpers.SanitizeKey(key)) && Keys(r.value.fields) == Keys(c.fields)
    ensures r.Some? ==> StatusOf(r.value) == if StatusOf(c) == Pristine then Dirty else StatusOf(c)
  {
    match GetField(c, key)
    case None => None
    case Some(f) =>
      var status := if c.globalStatus == Pristine then Dirty else c.globalStatus;
      Some(Update(c, key, LegacyFormField.SetValue(f, v), Some(status)))
  }

  function SetTransform(c: Collection, key: string, t: Option<Transform>): (r: Option<Collection>)
    ensures r.None? <==> GetField(c, key).None?
    ensures r.Some? ==> GetField(r.value, key) == Some(LegacyFormField.SetTransform(GetField(c, key).value, t))
    ensures r.Some? ==> Agree(c, r.value, Helpers.SanitizeKey(key)) && StatusOf(r.value) == StatusOf(c)
    ensures r.Some? ==> Keys(r.value.fields) == Keys(c.fields)
  {
    match GetField(c, key)
    case None => None
    case Some(f) => Some(Update(c, key, LegacyFormField.SetTransform(f, t), None))
  }

  function SetValidation(c: Collection, key: string, v: Option<Validator>): (r: Option<Collection>)
    ensures r.None? <==> GetField(c, key).None?
    ensures r.Some? ==> GetField(r.value, key) == Some(LegacyFormField.SetValidate(GetField(c, key).value, v))
    ensures r.Some? ==> Agree(c, r.value, Helpers.SanitizeKey(key)) && StatusOf(r.value) == StatusOf(c)
    ensures r.Some? ==> Keys(r.value.fields) == Keys(c.fields)
  {
    match GetField(c, key)
    case None => None
    case Some(f) => Some(Update(c, key, LegacyFormField.SetValidate(f, v), None))
  }

  /** `validateField`: a pass returns the same collection; a failure stores
      the failed field and makes the form INVALID. `None` when there is no
      such field. */
  function ValidateField(c: Collection, key: string): (r: Option<Validation>)
    ensures r.None? <==> GetField(c, key).None?
    ensures r.Some? ==> (r.value.valid <==> LegacyFormField.Outcome(GetField(c, key).value) == Pass)
    ensures r.Some? && r.value.valid ==> r.value.fields == c
    ensures r.Some? && !r.value.valid ==>
              && GetField(r.value.fields, key) == Some(LegacyFormField.Validate(GetField(c, key).value).field)
              && StatusOf(r.value.fields) == Invalid
              && Agree(c, r.value.fields, Helpers.SanitizeKey(key))
              && Keys(r.value.fields.fields) == Keys(c.fields)
  {
    match GetField(c, key)
    case None => None
    case Some(f) =>
      var result := LegacyFormField.Validate(f);
      Some(Validation(if result.valid then c else Update(c, key, result.field, Some(Invalid)), result.valid))
  }

  // ---- derived getters ----

  /** What one field adds to the flat error list: `errs.push(...fieldErrs)`
      when `fieldErrs.length > 0`. A list adds its items; a single string
      error is spread into its characters; any other single value has no
      length and adds nothing. */
  function Contribution(f: Failure): (r: seq<ErrorItem>)
    ensures f.Errors? ==> r == f.items
    ensures f.Single? && f.item.Text? ==>
              |r| == |f.item.text| && forall k :: 0 <= k < |r| ==> r[k] == Text([f.item.text[k]])
    ensures f.Single? && !f.item.Text? ==> r == []
  {
    match f
    case Errors(xs) => xs
    case Single(Text(s)) => seq(|s|, i requires 0 <= i < |s| => Text([s[i]]))
    case Single(_) => []
  }

  /** What entry `e` adds to the flat error list. */
  function EntryErrors(e: Entry<Field>): seq<ErrorItem> {
    Contribution(LegacyFormField.ErrorsOf(e.val))
  }

  /** The `forEach` over the keys: the entries' contributions, concatenated
      in key order. */
  function Flatten(es: Dict<Field>): seq<ErrorItem>
    decreases |es|
  {
    if |es| == 0 then [] else Flatten(es[..|es| - 1]) + EntryErrors(es[|es| - 1])
  }

  /** The flat list holds exactly the items the fields contribute, and is
      empty iff no field contributes any. */
  function ErrorsOver(es: Dict<Field>): (r: seq<ErrorItem>)
    ensures forall i, e :: 0 <= i < |es| && e in EntryErrors(es[i]) ==> e in r
    ensures forall e :: e in r ==> exists i :: 0 <= i < |es| && e in EntryErrors(es[i])
    ensures |r| == 0 <==> forall i :: 0 <= i < |es| ==> EntryErrors(es[i]) == []
  {
    FlattenMembers(es);
    Flatten(es)
  }

  lemma {:induction false} FlattenMembers(es: Dict<Field>)
    ensures forall i, e :: 0 <= i < |es| && e in EntryErrors(es[i]) ==> e in Flatten(es)
    ensures forall e :: e in Flatten(es) ==> exists i :: 0 <= i < |es| && e in EntryErrors(es[i])
    ensures |Flatten(es)| == 0 <==> forall i :: 0 <= i < |es| ==> EntryErrors(es[i]) == []
    decreases |es|
  {
    if |es| > 0 {
      var n := |es| - 1;
      FlattenMembers(es[..n]);
      assert forall i :: 0 <= i < n ==> es[..n][i] == es[i];
    }
  }

  /** Concatenation in key order, duplicates kept: splitting the entries
      splits the flat list. */
  lemma {:induction false} ErrorsOverAppend(a: Dict<Field>, b: Dict<Field>)
    ensures ErrorsOver(a + b) == ErrorsOver(a) + ErrorsOver(b)
  {
    FlattenAppend(a, b);
  }

  lemma {:induction false} FlattenAppend(a: Dict<Field>, b: Dict<Field>)
    ensures Flatten(a + b) == Flatten(a) + Flatten(b)
    decreases |b|
  {
    if |b| == 0 {
      assert a + b == a;
    } else {
      var n := |b| - 1;
      var ab := a + b;
      assert ab[..|ab| - 1] == a + b[..n];
      assert ab[|ab| - 1] == b[n];
      FlattenAppend(a, b[..n]);
    }
  }

  /** One entry contributes exactly its own errors. */
  lemma ErrorsOverSingle(e: Entry<Field>)
    ensures ErrorsOver([e]) == Contribution(LegacyFormField.ErrorsOf(e.val))
  {
    assert [e][..0] == [];
    assert Flatten([e]) == Flatten([]) + EntryErrors(e);
  }

  /** The `errors` getter: one flat list. */
  function Errors(c: Collection): seq<ErrorItem> {
    ErrorsOver(c.fields)
  }

  /** The path a field is written to in `values`: its sanitized storage key. */
  function StoragePath(e: Entry<Field>): seq<string> {
    Split(e.key)
  }

  function ValueLeaf(f: Field): Option<Value> {
    Some(LegacyFormField.ValueOf(f))
  }

  /** The `values` getter. */
  function Values(c: Collection): Tree<Value> {
    Assemble(c.fields, StoragePath, ValueLeaf)
  }

  // ---- properties ----

  /** A collection built with no arguments is empty and PRISTINE, with
      trigger 'submit'. */
  lemma EmptyCollection()
    ensures var c := Create(None, None, None, None);
      && Values(c) == EmptyTree() && Errors(c) == [] && StatusOf(c) == Pristine
      && c.globalValidateOn == Submit
  {
  }

  /** Each constructor argument given is used as it is; each one left out
      takes its default. */
  lemma CreateArguments(defaults: Option<Tree<Value>>, globalValidateOn: Option<Trigger>,
                        fields: Option<Dict<Field>>, globalStatus: Option<Status>)
    ensures var c := Create(defaults, globalValidateOn, fields, globalStatus);
      && c.defaults == (if defaults.Some? then defaults.value else EmptyTree())
      && c.globalValidateOn == (if globalValidateOn.Some? then globalValidateOn.value else Submit)
      && c.fields == (if fields.Some? then fields.value else [])
      && c.globalStatus == (if globalStatus.Some? then globalStatus.value else Pristine)
  {
  }

  /** Rebuilding a collection from its own attributes gives it back, as
      `remove` and `update` rely on. */
  lemma CreateFromOwnAttributes(c: Collection)
    ensures Create(Some(c.defaults), Some(c.globalValidateOn), Some(c.fields), Some(c.globalStatus)) == c
  {
  }

  /** `getField` finds a field exactly when the sanitized key is stored; keys
      that sanitize alike find the same field, and a dot-free key is looked
      up as it is. */
  lemma GetFieldSanitizes(c: Collection, key: string)
    ensures GetField(c, key).Some? <==> Helpers.SanitizeKey(key) in Keys(c.fields)
    ensures forall key' :: Helpers.SanitizeKey(key') == Helpers.SanitizeKey(key) ==>
              GetField(c, key') == GetField(c, key)
    ensures '.' !in key ==> GetField(c, key) == Get(c.fields, key)
  {
  }

  /** The `status` getter reads only the stored global status: replacing
      every field leaves it as it was. */
  lemma StatusIgnoresFields(c: Collection, fs: Dict<Field>)
    ensures StatusOf(c.(fields := fs)) == StatusOf(c)
  {
  }

  /** Nothing appears in `values` at a path no storage key touches. */
  lemma ValuesNothingElse(c: Collection, q: seq<string>)
    requires forall j :: 0 <= j < |c.fields| ==> Independent(q, StoragePath(c.fields[j]))
    ensures GetPath(Values(c), q) == None
  {
    AssembleAbsent(c.fields, StoragePath, ValueLeaf, q);
  }

  /** The added field is PRISTINE iff the value argument is missing or '';
      it then starts from the default stored at the key's path, or from ''
      when there is none. */
  lemma AddedField(c: Collection, key: string, value: Option<string>, transform: Option<Transform>,
                   validate: Option<Validator>, validateOn: Option<Trigger>)
    ensures var f := GetField(Add(c, key, value, transform, validate, validateOn), key);
      && f.Some?
      && (LegacyFormField.StatusOf(f.value) == Pristine <==> value.None? || value.value == "")
      && (value.Some? && value.value != "" ==> LegacyFormField.RawValue(f.value) == Str(value.value))
      && ((value.None? || value.value == "") && GetPath(c.defaults, Split(key)).None? ==>
            LegacyFormField.RawValue(f.value) == Str(""))
      && ((value.None? || value.value == "") && GetPath(c.defaults, Split(key)).Some? ==>
            LegacyFormField.RawValue(f.value) == GetPath(c.defaults, Split(key)).value)
      && LegacyFormField.ValidateOn(f.value) == (if validateOn.Some? then validateOn.value else c.globalValidateOn)
  {
  }

  /** The form status is not derived from the fields: adding a DIRTY field
      to a PRISTINE form leaves it PRISTINE. */
  lemma StatusNotDerived(c: Collection, key: string, v: string)
    requires StatusOf(c) == Pristine && v != ""
    ensures var r := Add(c, key, Some(v), None, None, None);
      && StatusOf(r) == Pristine
      && LegacyFormField.StatusOf(GetField(r, key).value) == Dirty
  {
  }

  /** A field whose storage path no other field's path touches can be read
      back from `values`. */
  lemma ValuesLookup(c: Collection, i: nat)
    requires i < |c.fields| && Isolated(c.fields, StoragePath, i)
    ensures GetPath(Values(c), Split(c.fields[i].key)) == Some(LegacyFormField.ValueOf(c.fields[i].val))
  {
    AssembleLookup(c.fields, StoragePath, ValueLeaf, i);
  }
}

=== FILE: status_view.dfy ===
/** The status selection of the Status component
    (src/components/Status.tsx). */
module StatusView {
  import opened Wrappers
  import opened Types
  import FormField
  import FormFields

  /** `renderStatus(name, render, fields)`: with no name (or '') the form's
      status is rendered, with a name the status of that field; `None`
      stands for the `null` returned when the named field does not exist. */
  function RenderStatus<R>(name: Option<string>, render: Status -> R, c: FormFields.Collection): (r: Option<R>)
    ensures name.None? || name.value == "" ==> r == Some(render(FormFields.StatusOf(c)))
    ensures name.Some? && name.value != "" ==>
              (r.None? <==> FormFields.GetField(c, name.value).None?)
    ensures name.Some? && name.value != "" && r.Some? ==>
              r.value == render(FormField.StatusOf(FormFields.GetField(c, name.value).value))
  {
    if name.None? || name.value == "" then Some(render(FormFields.StatusOf(c)))
    else
      match FormFields.GetField(c, name.value)
      case None => None
      case Some(f) => Some(render(FormField.StatusOf(f)))
  }

  function Shown(s: Status): Status {
    s
  }

  /** The status shown for a named field never outranks the one shown for
      the whole form. */
  lemma FieldStatusBelowForm(c: FormFields.Collection, key: string)
    requires key != ""
    requires RenderStatus(Some(key), Shown, c).Some?
    ensures Rank(RenderStatus(Some(key), Shown, c).value) <= Rank(RenderStatus(None, Shown, c).value)
  {
  }
}

=== FILE: trees.dfy ===
/** Nested object trees addressed by dotted paths: the model of the path
    helpers react-ferms imports (`prop.set`, `prop.get`), which are not part
    of this model and are rebuilt here from their observable behaviour. */
module Trees {
  import opened Wrappers
  import opened Dict
  import Helpers

  /** A JSON-like object: a leaf value or an object of named children. */
  datatype Tree<T> = Leaf(value: T) | Node(children: map<string, Tree<T>>)

  /** `{}` */
  function EmptyTree<T>(): Tree<T> {
    Node(map[])
  }

  /** `s.split('.')`: the segments between dots, at least one. */
  function Split(s: string): (r: seq<string>)
    ensures |r| >= 1
    ensures forall i :: 0 <= i < |r| ==> '.' !in r[i]
    decreases |s|
  {
    match Helpers.FirstIndexOf(s, '.')
    case None => [s]
    case Some(i) => [s[..i]] + Split(s[i + 1..])
  }

  /** `segments.join('.')` */
  function Join(p: seq<string>): string
    decreases |p|
  {
    if |p| == 0 then ""
    else if |p| == 1 then p[0]
    else p[0] + "." + Join(p[1..])
  }

  /** Splitting then joining gives the key back. */
  lemma {:induction false} JoinSplit(s: string)
    ensures Join(Split(s)) == s
    decreases |s|
  {
    match Helpers.FirstIndexOf(s, '.')
    case None =>
    case Some(i) =>
      var rest := s[i + 1..];
      var p := Split(s);
      assert p == [s[..i]] + Split(rest);
      assert p[1..] == Split(rest);
      assert Join(p) == s[..i] + "." + Join(Split(rest));
      JoinSplit(rest);
      assert s == s[..i] + "." + rest;
  }

  /** Joining dot-free segments then splitting gives the segments back. */
  lemma {:induction false} SplitJoin(p: seq<string>)
    requires |p| >= 1
    requires forall i :: 0 <= i < |p| ==> '.' !in p[i]
    ensures Split(Join(p)) == p
    decreases |p|
  {
    if |p| > 1 {
      var s := Join(p);
      var rest := Join(p[1..]);
      assert s == p[0] + "." + rest;
      assert s[..|p[0]|] == p[0];
      assert s[|p[0]|] == '.';
      assert Helpers.FirstIndexOf(s, '.') == Some(|p[0]|);
      assert s[|p[0]| + 1..] == rest;
      SplitJoin(p[1..]);
    } else {
      assert Helpers.FirstIndexOf(p[0], '.') == None;
    }
  }

  /** `p` is a prefix of `q`. */
  predicate IsPrefix(p: seq<string>, q: seq<string>) {
    |p| <= |q| && q[..|p|] == p
  }

  /** Neither path lies on the other: writing one cannot touch the other. */
  predicate Independent(p: seq<string>, q: seq<string>) {
    !IsPrefix(p, q) && !IsPrefix(q, p)
  }

  /** The value stored at path `p`, if the path ends at a leaf. */
  function GetPath<T>(t: Tree<T>, p: seq<string>): Option<T>
    decreases |p|
  {
    if |p| == 0 then (if t.Leaf? then Some(t.value) else None)
    else if t.Node? && p[0] in t.children then GetPath(t.children[p[0]], p[1..])
    else None
  }

  /** A copy of `t` with `v` stored at path `p`, creating the objects on the
      way and replacing a leaf found on the way by an object. */
  function SetPath<T>(t: Tree<T>, p: seq<string>, v: T): Tree<T>
    decreases |p|
  {
    if |p| == 0 then Leaf(v)
    else
      var kids := if t.Node? then t.children else map[];
      var child := if p[0] in kids then kids[p[0]] else EmptyTree();
      Node(kids[p[0] := SetPath(child, p[1..], v)])
  }

  /** `prop.get(obj, key, default)`: the value at the dotted key's path, or
      `default` when no value is stored there. */
  function GetKey<T>(t: Tree<T>, key: string, default: T): T {
    GetPath(t, Split(key)).GetOr(default)
  }

  /** Reading a path that was just written gives the written value. */
  lemma {:induction false} GetSetSame<T>(t: Tree<T>, p: seq<string>, v: T)
    ensures GetPath(SetPath(t, p, v), p) == Some(v)
    decreases |p|
  {
    if |p| > 0 {
      var kids := if t.Node? then t.children else map[];
      var child := if p[0] in kids then kids[p[0]] else EmptyTree();
      GetSetSame(child, p[1..], v);
    }
  }

  /** Writing a path leaves every independent path as it was. */
  lemma {:induction false} GetSetOther<T>(t: Tree<T>, p: seq<string>, v: T, q: seq<string>)
    requires Independent(p, q)
    ensures GetPath(SetPath(t, p, v), q) == GetPath(t, q)
    decreases |p|
  {
    var kids := if t.Node? then t.children else map[];
    var child := if p[0] in kids then kids[p[0]] else EmptyTree();
    if p[0] == q[0] {
      GetSetOther(child, p[1..], v, q[1..]);
      if p[0] !in kids {
        EmptyHasNothing<T>(q[1..]);
      }
    }
  }

  /** The empty object holds no value at any path. */
  lemma EmptyHasNothing<T>(q: seq<string>)
    ensures GetPath(EmptyTree<T>(), q) == None
  {
  }

  /** Builds an object by writing, entry after entry, `leaf(val)` at
      `path(entry)`; entries whose `leaf` is `None` are skipped. This is the
      shape of the `values` and `errors` getters (a reduce over `prop.set`). */
  function Assemble<V, T>(es: Dict<V>, path: Entry<V> -> seq<string>, leaf: V -> Option<T>): Tree<T>
    decreases |es|
  {
    if |es| == 0 then EmptyTree()
    else
      var prev := Assemble(es[..|es| - 1], path, leaf);
      var e := es[|es| - 1];
      match leaf(e.val)
      case None => prev
      case Some(x) => SetPath(prev, path(e), x)
  }

  /** Entry `i`'s path is independent of every other entry's path. */
  predicate Isolated<V>(es: Dict<V>, path: Entry<V> -> seq<string>, i: nat)
    requires i < |es|
  {
    forall j :: 0 <= j < |es| && j != i ==> Independent(path(es[i]), path(es[j]))
  }

  /** An isolated entry can be read back at its path: its leaf if it has
      one, nothing otherwise. */
  lemma {:induction false} AssembleLookup<V, T>(es: Dict<V>, path: Entry<V> -> seq<string>, leaf: V -> Option<T>, i: nat)
    requires i < |es|
    requires Isolated(es, path, i)
    ensures GetPath(Assemble(es, path, leaf), path(es[i])) == leaf(es[i].val)
    decreases |es|
  {
    var n := |es| - 1;
    var prev := Assemble(es[..n], path, leaf);
    var p := path(es[i]);
    if i == n {
      match leaf(es[n].val)
      case None =>
        assert forall j :: 0 <= j < n ==> Independent(p, path(es[..n][j])) by {
          forall j | 0 <= j < n
            ensures Independent(p, path(es[..n][j]))
          {
            assert es[..n][j] == es[j];
          }
        }
        AssembleAbsent(es[..n], path, leaf, p);
      case Some(x) =>
        GetSetSame(prev, path(es[n]), x);
    } else {
      assert Isolated(es[..n], path, i) by {
        forall j | 0 <= j < n && j != i
          ensures Independent(path(es[..n][i]), path(es[..n][j]))
        {
          assert es[..n][j] == es[j];
        }
      }
      assert es[..n][i] == es[i];
      AssembleLookup(es[..n], path, leaf, i);
      match leaf(es[n].val)
      case None =>
      case Some(x) =>
        assert Independent(path(es[n]), p);
        GetSetOther(prev, path(es[n]), x, p);
    }
  }

  /** A path independent of every entry's path holds nothing. */
  lemma {:induction false} AssembleAbsent<V, T>(es: Dict<V>, path: Entry<V> -> seq<string>, leaf: V -> Option<T>, q: seq<string>)
    requires forall j :: 0 <= j < |es| ==> Independent(q, path(es[j]))
    ensures GetPath(Assemble(es, path, leaf), q) == None
    decreases |es|
  {
    if |es| == 0 {
      EmptyHasNothing<T>(q);
    } else {
      var n := |es| - 1;
      assert forall j :: 0 <= j < n ==> Independent(q, path(es[..n][j])) by {
        forall j | 0 <= j < n
          ensures Independent(q, path(es[..n][j]))
        {
          assert es[..n][j] == es[j];
        }
      }
      AssembleAbsent(es[..n], path, leaf, q);
      match leaf(es[n].val)
      case None =>
      case Some(x) =>
        assert Independent(q, path(es[n]));
        GetSetOther(Assemble(es[..n], path, leaf), path(es[n]), x, q);
    }
  }
}

=== FILE: types.dfy ===
/** The shared vocabulary of the form library: statuses, triggers, field
    values, error items and validation verdicts (src/types/index.tsx). */
module Types {
  import opened Wrappers

  /** Field and form status. PRISTINE, DIRTY and INVALID carry the ranks 0, 1
      and 2 of the `FormStatus` enum; VALIDATING, which the asynchronous field uses
      while a validation is in flight, is given rank 3 (the number a fourth
      enum member would receive). */
  datatype Status = Pristine | Dirty | Invalid | Validating

  function Rank(s: Status): nat {
    match s
    case Pristine => 0
    case Dirty => 1
    case Invalid => 2
    case Validating => 3
  }

  /** `Math.max` over statuses, by rank. */
  function MaxStatus(a: Status, b: Status): (r: Status)
    ensures Rank(a) <= Rank(r) && Rank(b) <= Rank(r)
    ensures r == a || r == b
  {
    if Rank(a) >= Rank(b) then a else b
  }

  /** When a field asks to be validated. */
  datatype Trigger = Change | Blur | Submit

  /** A field value: a string, or a list of strings for multi-value controls
      such as checkbox groups. Transforms map values to values. */
  datatype Value = Str(s: string) | List(items: seq<string>)

  /** JavaScript truthiness of an optional value: `undefined` and the empty
      string are falsy, every array (even an empty one) is truthy. */
  predicate Truthy(v: Option<Value>) {
    match v
    case None => false
    case Some(Str(s)) => s != ""
    case Some(List(_)) => true
  }

  /** One validation error: a message, an opaque token standing for an
      `Error` object, a renderable element or any other truthy non-string
      value, or one of the falsy non-string values (`false`, `null`, `0`). */
  datatype ErrorItem = Text(text: string) | Opaque(id: nat) | Falsy

  /** A validator result other than `true`: either an array of errors or a
      single non-array value. */
  datatype Failure = Errors(items: seq<ErrorItem>) | Single(item: ErrorItem)

  /** JavaScript truthiness of a failure: every array is truthy; a single
      value is falsy when it is '' or a falsy non-string value. */
  predicate TruthyFailure(f: Failure) {
    match f
    case Errors(_) => true
    case Single(Text(s)) => s != ""
    case Single(Opaque(_)) => true
    case Single(Falsy) => false
  }

  /** A validator result: `true` or a failure. */
  datatype Verdict = Pass | Fail(failure: Failure)

  /** The error list stored for a failure: an array as it is, any other value
      wrapped into a one-element list. */
  function Normalize(f: Failure): (r: seq<ErrorItem>)
    ensures f.Errors? ==> r == f.items
    ensures f.Single? ==> |r| == 1 && r[0] == f.item
  {
    match f
    case Errors(xs) => xs
    case Single(e) => [e]
  }

  type Transform = Value -> Value
  type Validator = Value -> Verdict

  /** Adapts a validator specification to a verdict for a value. */
  type Strategy = (Value, Validator) -> Verdict
}

=== FILE: value_view.dfy ===
/** The pure part of the Value component (src/components/Value.tsx): which
    fields a name selects, the values and statuses gathered from them, and
    what is handed to the render function. */
module ValueView {
  import opened Wrappers
  import opened Types
  import FormField
  import FormFields

  type Field = FormField.Field

  /** The `name` prop: one key or a list of keys. */
  datatype Name = One(key: string) | Many(keys: seq<string>)

  /** `getField(name, fields)`: the looked-up fields, `None` for a missing
      key, always as a list. */
  function GetFields(name: Name, c: FormFields.Collection): (r: seq<Option<Field>>)
    ensures name.One? ==> r == [FormFields.GetField(c, name.key)]
    ensures name.Many? ==> |r| == |name.keys|
    ensures name.Many? ==> forall i :: 0 <= i < |r| ==> r[i] == FormFields.GetField(c, name.keys[i])
  {
    match name
    case One(key) => [FormFields.GetField(c, key)]
    case Many(keys) => seq(|keys|, i requires 0 <= i < |keys| => FormFields.GetField(c, keys[i]))
  }

  /** What a slot shows: the transformed value, '' for a missing field. */
  function ShownValue(f: Option<Field>): Value {
    if f.Some? then FormField.ValueOf(f.value) else Str("")
  }

  /** What a slot reports: the field's status, INVALID for a missing field. */
  function ShownStatus(f: Option<Field>): Status {
    if f.Some? then FormField.StatusOf(f.value) else Invalid
  }

  /** The accumulator `{ value: [], status: [] }`. */
  datatype Vals = Vals(values: seq<Value>, statuses: seq<Status>)

  /** `fieldValueReducer`: appends one slot's value and status. */
  function Reduce(acc: Vals, f: Option<Field>): (r: Vals)
    ensures |r.values| == |acc.values| + 1 && r.values[|acc.values|] == ShownValue(f)
    ensures |r.statuses| == |acc.statuses| + 1 && r.statuses[|acc.statuses|] == ShownStatus(f)
    ensures r.values[..|acc.values|] == acc.values && r.statuses[..|acc.statuses|] == acc.statuses
  {
    Vals(acc.values + [ShownValue(f)], acc.statuses + [ShownStatus(f)])
  }

  /** `getFieldVals`: the reducer folded from the left over the slots; one
      value and one status per slot, in slot order. */
  function FieldVals(fs: seq<Option<Field>>): (r: Vals)
    ensures |r.values| == |fs| && |r.statuses| == |fs|
    ensures forall i :: 0 <= i < |fs| ==> r.values[i] == ShownValue(fs[i]) && r.statuses[i] == ShownStatus(fs[i])
    decreases |fs|
  {
    if |fs| == 0 then Vals([], [])
    else
      var prev := FieldVals(fs[..|fs| - 1]);
      Reduce(prev, fs[|fs| - 1])
  }

  /** `unwrap`: a one-element list stands for its element. */
  datatype Unwrapped<T> = Sole(item: T) | Whole(items: seq<T>)

  function Unwrap<T>(v: seq<T>): (r: Unwrapped<T>)
    ensures r.Sole? <==> |v| == 1
    ensures r.Sole? ==> r.item == v[0]
    ensures r.Whole? ==> r.items == v
  {
    if |v| == 1 then Sole(v[0]) else Whole(v)
  }

  /** The list an unwrapped value stands for. */
  function Rewrap<T>(u: Unwrapped<T>): seq<T> {
    match u
    case Sole(x) => [x]
    case Whole(xs) => xs
  }

  /** What `renderValue` produces: the render function's output, or the
      values as a fragment when there is no render function. */
  datatype Rendered<R> = Custom(out: R) | Fragment(values: seq<Value>)

  type RenderFn<R> = (Unwrapped<Value>, Unwrapped<Status>) -> R

  function RenderValue<R>(render: Option<RenderFn<R>>, fs: seq<Option<Field>>): (r: Rendered<R>)
    ensures render.None? ==> r.Fragment? && |r.values| == |fs|
    ensures render.None? ==> forall i :: 0 <= i < |fs| ==> r.values[i] == ShownValue(fs[i])
    ensures render.Some? ==> r.Custom?
  {
    var vals := FieldVals(fs);
    match render
    case None => Fragment(vals.values)
    case Some(fn) => Custom(fn(Unwrap(vals.values), Unwrap(vals.statuses)))
  }

  // ---- properties ----

  /** `unwrap` loses nothing: the list can be rebuilt from it. */
  lemma RewrapUnwrap<T>(v: seq<T>)
    ensures Rewrap(Unwrap(v)) == v
  {
  }

  /** One slot reaches the render function as a bare value and status;
      several reach it as lists in slot order. */
  lemma RenderArguments<R>(fn: RenderFn<R>, fs: seq<Option<Field>>)
    ensures |fs| == 1 ==>
              RenderValue(Some(fn), fs) == Custom(fn(Sole(ShownValue(fs[0])), Sole(ShownStatus(fs[0]))))
    ensures |fs| != 1 ==> exists vs: seq<Value>, ss: seq<Status> ::
              && |vs| == |fs| && |ss| == |fs|
              && (forall i :: 0 <= i < |fs| ==> vs[i] == ShownValue(fs[i]) && ss[i] == ShownStatus(fs[i]))
              && RenderValue(Some(fn), fs) == Custom(fn(Whole(vs), Whole(ss)))
  {
    var vals := FieldVals(fs);
    if |fs| != 1 {
      assert RenderValue(Some(fn), fs) == Custom(fn(Whole(vals.values), Whole(vals.statuses)));
    }
  }

  /** A key with no field shows as '' with status INVALID. */
  lemma MissingFieldShown(c: FormFields.Collection, key: string)
    requires FormFields.GetField(c, key).None?
    ensures FieldVals(GetFields(One(key), c)) == Vals([Str("")], [Invalid])
  {
  }

  /** Two fields, DIRTY 'hi' and INVALID 'nope', with no transform reach the
      render function as `['hi', 'nope']` and `[DIRTY, INVALID]`. */
  lemma TwoFieldsExample(fn: RenderFn<bool>, f: Field, g: Field)
    requires f.transform.None? && f.value == Some(Str("hi")) && f.status == Some(Dirty)
    requires g.transform.None? && g.value == Some(Str("nope")) && g.status == Some(Invalid)
    ensures RenderValue(Some(fn), [Some(f), Some(g)])
              == Custom(fn(Whole([Str("hi"), Str("nope")]), Whole([Dirty, Invalid])))
  {
    var vals := FieldVals([Some(f), Some(g)]);
    assert vals.values == [Str("hi"), Str("nope")];
    assert vals.statuses == [Dirty, Invalid];
  }
}

=== FILE: wrappers.dfy ===
/** An optional value: `None` stands for JavaScript's `undefined` (an attribute
    that was never set, or a lookup that found nothing). */
module Wrappers {

  datatype Option<+T> = None | Some(value: T) {

    /** The value, or `default` when there is none (the `x || default` idiom
        for values whose only falsy form is `undefined`). */
    function GetOr(default: T): T {
      match this
      case Some(v) => v
      case None => default
    }
  }
}
